=== FILE: README.md ===
# Anomaly detection support functions in Dafny

This project models the evaluation, thresholding, splitting and label-coding
logic of `support_functions.py` from an anomaly-detection study. The study
scores samples either by autoencoder reconstruction error or by the density
of a fitted multivariate Gaussian. It flags as anomalies the samples on the
wrong side of a learned threshold, and evaluates the flags against 0/1
labels (1 = anomaly).

The model has five modules, one file each:

- `seqs.dfy` (`Seqs`): sequence vocabulary.
  - Python slicing `s[:k]` and `s[k:]`, including negative and past-the-end
    `k`.
  - numpy fancy indexing (`Gather`).
  - Permutations of `range(n)`, counting and summing.
  - The proof that reordering by a permutation keeps a vector's multiset.
- `metrics.dfy` (`Metrics`): the metric engine.
  - Confusion counts from masks.
  - Precision and recall with the `max(1, ·)` denominator.
  - The F score `2pr / max(1, p + r)`.
  - Precision@K (`find_prec_k`) and R-Precision (`find_r_prec`).
  - `eval_prediction` in count and rate mode, `evaluate_pred`, and the
    returning path of `eval_with_test`.
- `thresholds.dfy` (`Thresholds`): the two threshold selectors.
  - They share a first-argmax sweep loop.
  - The test phase of `train_test_with_reconstruction_error` and
    `train_test_with_gaussian` applies the learned threshold to ranked test
    scores.
- `splits.dfy` (`Splits`): `perm_and_split`, `split_training` and
  `split_train_eval_test`.
- `labels.dfy` (`Labels`): `label_anomaly` and `convert_pred`.

**Vectors.** Label and prediction vectors are `seq<int>` and scores are
`seq<real>`. Ratios are exact reals. A 0/0 rate, which numpy reports as
`nan`, is the `NaN` case of the `Ratio` datatype.

**Parameters for randomness and sorting.** Random permutations and
shuffles are parameters. So are the `argsort` rankings, constrained by
`IsRanking`: a permutation that orders the scores, with ties in any order.

**The candidate grid.** The grid of candidate thresholds
`np.arange(min, max, (max - min) / 100)` is also a parameter. It is
constrained by `IsSweepGrid`: non-empty, starting at min, strictly
increasing, and below max except perhaps for its last point. The grid only
exists when min < max. `UniformGrid` is its exact-real instance: a hundred
points in [min, max). In floating point `np.arange` makes
`ceil((max - min) / step)` points, and rounding can make that 101 with the
last one at max itself: `np.arange(0.0, 69.0, 0.69)` ends with 69.0.
`GridEndingAtMax` admits that grid. For distances a candidate at or above
max flags nothing, so the result stays in [min, max) on any grid. For
densities flagged by `p < epsilon`, a candidate at max can be selected
(`GridEndSelected`).

**Sizes.** `int(m * ratio)` is truncation toward zero of the exact product
(`Trunc`, `SizeFor`).

**Errors.** On the raising paths listed here, the model returns an error
value instead. The selectors and the `train_test_with_*` functions return the `Err` case of
`Thresholds.Result`: `max()` of empty scores and `np.arange` with step 0
raise. `Splits.SplitTrainEvalTest` returns `None` for empty labels, where
`np.hstack(range(0))` raises. The `None` of `Splits.SplitTraining` is not an
error: it stands for the `while 1` loop finding no acceptable split among
the permutations it is given.

## Model

| member | source | states |
|---|---|---|
| Seqs.PyPrefixSuffix | support_functions.py:376-377 | `s[:k] + s[k:] == s` for every integer k, so a prefix cut and its suffix cut together are the whole vector |
| Seqs.GatherPermutation | support_functions.py:244-245 | indexing a vector through a permutation (`x[rank]`) keeps its multiset of elements |
| Seqs.CountPermutation | support_functions.py:367 | a permutation keeps the number of occurrences of each value, so `sum(labels)` is the same before and after ranking |
| Metrics.ConfusionTotal | support_functions.py:195-198 | on 0/1 vectors the four masked counts tp, tn, fp, fn add up to the vector length |
| Metrics.WhereAgree | support_functions.py:328-334 | `evaluate_pred`'s agreement counts over `Preds[ind_P]` / `Preds[ind_N]` equal the `logical_and` mask counts `eval_prediction` uses, for any label values |
| Metrics.ConfusionPermutationInvariant | support_functions.py:195-198 | reordering predictions and labels by the same permutation leaves all four counts unchanged |
| Metrics.Frac | support_functions.py:200-201 | `num / max(1, den)` is nonnegative and zero exactly when num is; when num <= den it is at most 1, and 1 exactly when num == den > 0 |
| Metrics.Precision | support_functions.py:200 | precision lies in [0, 1]; it is 0 iff there is no true positive, and 1 iff there is one and no false positive |
| Metrics.Recall | support_functions.py:201 | recall lies in [0, 1]; it is 0 iff there is no true positive, and 1 iff there is one and no false negative |
| Metrics.FScoreBounds | support_functions.py:202 | for p, r in [0, 1] the F score lies in [0, 1]; it is 0 iff p or r is 0, and 1 iff both are 1 |
| Metrics.FScoreVersusHarmonicMean | support_functions.py:202 | the F score is the harmonic mean when p + r >= 1 and strictly below it when p, r > 0 and p + r < 1 |
| Metrics.F1 | support_functions.py:200-202 | F1 of a confusion lies in [0, 1]; it is 0 iff tp == 0, and 1 iff tp > 0 with no false positive and no false negative |
| Metrics.F1DirectFormula | support_functions.py:207 | with tp > 0 and p + r >= 1, F1 equals the comment's direct form 2tp / (2tp + fn + fp) |
| Metrics.F1Quirk | support_functions.py:202 | the counts tp 1, fp 3, fn 3 give p = r = 1/4 and F1 = 1/8, while the harmonic mean is 1/4 |
| Metrics.PrecisionAtK | support_functions.py:371-383 | Precision@K lies in [0, 1], is the precision of the confusion of the Python prefixes `[:k]`, and is 0 for k = 0 |
| Metrics.AllPredictedPrecision | support_functions.py:376-382 | on a prefix where every entry is predicted 1 with 0/1 labels, precision is the number of anomalies over the prefix length |
| Metrics.PrecisionAtKBinary | support_functions.py:376-382 | with 0/1 labels, Precision@K is (hits among predicted 1 in the prefix) / max(1, predicted 1 in the prefix) |
| Metrics.RPrecision | support_functions.py:363-369 | R-Precision lies in [0, 1]; R is the number of anomalies for 0/1 labels; R = 0 gives R-Precision 0 |
| Metrics.RPrecisionPerfect | support_functions.py:363-369 | with R >= 1 anomalies and the first R ranked entries all predicted 1 and labelled 1, R-Precision is 1 |
| Metrics.RPrecisionNoRelevant | support_functions.py:367-368 | 0/1 labels without an anomaly give (0, 0) |
| Metrics.RankedScenario | support_functions.py:363-383 | on the ranked vector [1, 1, 0, 0, 0] with matching predictions, Precision@2 is 1 and R-Precision is (1, 2) |
| Metrics.EvalPrediction | support_functions.py:190-218 | F1 is the F of the confusion counts, 0 exactly when no sample is a true positive; the head is the four counts, or in rate mode tp/n_p, tn/n_n, fp/n_n, fn/n_p with n_p the number of labels equal to 1; R-Precision is the precision over the first `sum(yval)` entries; Precision@K is the precision over the first min(k, R) entries, R being the anomaly count on 0/1 labels |
| Metrics.RateModeComplements | support_functions.py:209-216 | with 0/1 vectors and both classes present, the rates are finite and tpr + fnr = 1, tnr + fpr = 1 |
| Metrics.EvaluatePred | support_functions.py:322-341 | returns (recall, precision, F) of the mask confusion counts, in that order |
| Metrics.EvaluatePredMatchesEvalPrediction | support_functions.py:202 | `evaluate_pred` and `eval_prediction` report the same F |
| Metrics.EvalWithTest | support_functions.py:343-361 | recall, precision and F are those of the confusion counts; R is `sum(Labels)`, the anomaly count on 0/1 labels; R-Precision is the precision over the first R entries and Precision@K over the first k entries, for every k; F and R-Precision agree with `eval_prediction` |
| Metrics.PrecisionAtKCuts | support_functions.py:205-206 | for every input, the Precision@K of `eval_prediction` is the one `eval_with_test` reports for k cut to min(k, R) |
| Metrics.PrecisionMono | support_functions.py:200 | more true positives with the same false positives never lower precision |
| Metrics.RecallMono | support_functions.py:201 | more true positives among the same anomalies never lower recall |
| Metrics.FScoreMono | support_functions.py:202 | on [0, 1], `2pr / max(1, p + r)` does not decrease in p or in r |
| Metrics.F1Mono | support_functions.py:200-202 | more true positives, the same false positives and the same anomalies never lower F1 |
| Metrics.MoreHitsCounts | support_functions.py:195-198 | a 0/1 prediction that flags at least the anomalies another flags, and agrees with it elsewhere, has at least its true positives, the same false positives and the same tp + fn |
| Metrics.PrecisionAtKInEvalPrediction | support_functions.py:205-206 | with predictions [1, 1], labels [1, 0] and k = 2, `eval_prediction` reports Precision@K 1, because it cuts at min(k, R) = 1 |
| Metrics.PrecisionAtKInEvalWithTest | support_functions.py:350-351 | on the same input, `eval_with_test` cuts at k = 2 and reports 1/2 |
| Thresholds.Predict | support_functions.py:251 | the prediction vector is 0/1, and an entry is 1 exactly when its score is on the anomalous side of the threshold |
| Thresholds.MinOf | support_functions.py:248 | the minimum is an element of the scores and at most every score |
| Thresholds.MaxOf | support_functions.py:248 | the maximum is an element of the scores and at least every score |
| Thresholds.MinMaxPermutation | support_functions.py:244-250 | min and max of the ranked scores are those of the unranked scores |
| Thresholds.UniformGridIsSweepGrid | support_functions.py:248-250 | with min < max, the exact hundred-point grid starts at min, is strictly increasing and every point stays below max |
| Thresholds.GridEndingAtMax | support_functions.py:290-292 | the float grid with a 101st point at max is still an admissible sweep grid |
| Thresholds.PositiveF1FlagsAnomaly | support_functions.py:251-256 | a threshold whose F1 is positive flags at least one labelled anomaly |
| Thresholds.GridEndSelected | support_functions.py:290-300 | on densities [0, 68.5, 69] with labels [0, 1, 0], the grid ending at 69.0 selects 69.0, the maximum density, while the exact hundred-point grid selects 0 |
| Thresholds.SelectionUnique | support_functions.py:238-258 | the first-argmax rule admits one threshold only, so the result does not depend on the ranking or its tie order |
| Thresholds.SweepF1Ranked | support_functions.py:250-253 | thresholding commutes with ranking, and the confusion of ranked predictions equals that of unranked ones |
| Thresholds.EvaluateCandidate | support_functions.py:251-253 | the F1 `eval_prediction` reports for ranked predictions at one candidate is the F1 of the unranked prediction, for any ranking |
| Thresholds.Sweep | support_functions.py:250-258 | the loop returns 0 when no candidate has F1 > 0, and otherwise the candidate at the first maximum of F1 over the unranked samples |
| Thresholds.SelectThresholdDistance | support_functions.py:228-265 | empty scores and all-equal distances (step 0) are errors. Otherwise the result is the first-argmax selection, which is 0 or a grid point in [min, max), also when the grid's last point reaches max |
| Thresholds.SelectThresholdProbability | support_functions.py:267-307 | only empty scores are an error. All-equal densities return 0 without a sweep. Otherwise the result is the first-argmax selection, which is 0 or a grid point above min; it can be max when the grid ends there |
| Thresholds.SweepF1Monotone | support_functions.py:251-253 | at a fixed threshold, moving only anomaly scores towards the anomalous side never lowers F1 |
| Thresholds.SweepBestMonotone | support_functions.py:250-258 | over a fixed grid, moving only anomaly scores towards the anomalous side never lowers the best F1 of the sweep |
| Thresholds.RebuiltGridLowersBest | support_functions.py:248-258 | raising the anomaly distance 10 to 1000 in [0, 4.95, 9, 5.05, 10] (labels [0, 0, 0, 1, 1]) lowers the best F1: candidate 5 of the grid over [0, 10) gives 4/5, and every candidate of the rebuilt grid over [0, 1000) gives 2/3 |
| Thresholds.RaisedCandidate | support_functions.py:250-253 | candidate i of the grid over [0, 1000) is 10i; at 0 four scores are flagged and from 10 on only 1000, so F1 is 2/3 either way |
| Thresholds.RankedPredictionsSorted | support_functions.py:465-472 | in ranked order every flagged test sample precedes every unflagged one |
| Thresholds.RankedCutPrecision | support_functions.py:465-472 | with at least n test samples flagged, precision over the first n ranked samples is the share of anomalies among them |
| Thresholds.TestPhase | support_functions.py:465-480 | recall, precision and F on the ranked test vectors equal `evaluate_pred` on the unranked prediction; R is the number of test anomalies; with 0/1 labels and at least R (or k) samples flagged, R-Precision (or Precision@K) is the share of anomalies among the first R (or k) ranked samples |
| Thresholds.TrainTestWithReconstructionError | support_functions.py:434-480 | an error exactly when the training distances are empty or all equal; otherwise the test report of the threshold the sweep selects, which is 0 or lies in [min, max) of the training distances |
| Thresholds.TrainTestWithGaussian | support_functions.py:482-530 | an error exactly when the training densities are empty; all-equal densities give the test report at threshold 0; otherwise the test report of the threshold the sweep selects, which is 0 or a grid point above the minimum training density |
| Splits.Trunc | support_functions.py:91 | `int(x)` truncates toward zero: the result is within 1 of x, on the side of 0 |
| Splits.SplitIntendedPartition | support_functions.py:91-93 | the cut `ind[:size]` / `ind[size:]` of a permutation is disjoint and covers range(m) for every size, and the first part has the clamped length |
| Splits.SplitAsWrittenDrops | support_functions.py:91-93 | for 1 <= size <= m, `ind[:size-1]` and `ind[size:]` are disjoint with sizes size-1 and m-size; `ind[size-1]` is in neither; together with it they cover range(m) |
| Splits.SplitAsWrittenOverlap | support_functions.py:92-93 | at size 0, `ind[:-1]` and `ind[0:]` share `ind[0]` |
| Splits.PermAndSplit | support_functions.py:86-94 | the intended groups partition range(m). For 1 <= size <= m, the as-written groups are disjoint with m-1 indices in total |
| Splits.PermAndSplitLosesOne | support_functions.py:91-93 | m = 5, ratio 0.8, identity permutation: as written ([0,1,2], [4]), with index 3 lost; intended ([0,1,2,3], [4]) |
| Splits.PermAndSplitOverlaps | support_functions.py:91-93 | m = 2, ratio 0.2: as written ([0], [0,1]), which overlap; intended ([], [0,1]) |
| Splits.Attempt | support_functions.py:104-108 | each candidate group addresses samples only |
| Splits.SplitTraining | support_functions.py:96-112 | None iff no supplied permutation gives an acceptable split; otherwise the split of the first permutation that does |
| Splits.AcceptableMeansAnomalies | support_functions.py:110 | on 0/1 labels a positive label sum over a group means the group holds an anomaly, and conversely |
| Splits.NoAnomalyNeverAccepted | support_functions.py:105-111 | with no anomaly no split is accepted, so the retry loop never ends |
| Splits.TrainingSizeOne | support_functions.py:107-110 | at training size 1 the as-written training group is empty and never accepted; the intended one is `ind[:1]`, and it is accepted when its entry and some later entry are anomalies |
| Splits.IndicesOf | support_functions.py:137-138 | `ind[labels == v]` lists exactly the positions with label v, in increasing order, one per occurrence |
| Splits.SplitTrainEvalTest | support_functions.py:128-153 | an error (None) exactly when the labels are empty. Otherwise validation is returned iff ratio_val > 0. Training holds label-0 indices only, and its size is the clamped `int(m*ratio_train)`. Validation has the clamped `int(m*ratio_val)` of the pool |
| Splits.SplitTrainEvalTestMultiset | support_functions.py:140-149 | the three parts together hold the normal and anomalous indices, each as often as there |
| Splits.IndicesMultiplicity | support_functions.py:136-138 | each index labelled 0 or 1 occurs once among the normal and anomalous index vectors, others not at all |
| Splits.SplitTrainEvalTestPartition | support_functions.py:136-153 | for ratio_val >= 0 every index labelled 0 or 1 occurs in exactly one returned part, and no other index occurs |
| Splits.PartsPartition | support_functions.py:138-153 | the same partition for the index vectors built once `ind` exists |
| Splits.AnomaliesHeldOut | support_functions.py:143-149 | with an anomaly present the call returns; no anomaly is in the training part, and each is in validation or test |
| Labels.LabelAnomaly | support_functions.py:423-432 | the output is 0/1 and is 1 exactly where the input equals the anomaly digit |
| Labels.LabelAnomalyCounts | support_functions.py:430-431 | the number of ones is the number of occurrences of the digit; the zeros are the rest |
| Labels.LabelAnomalyGather | support_functions.py:430-431 | labelling commutes with selecting samples through an index vector |
| Labels.ConvertPredAsWritten | support_functions.py:316-319 | in terms of the original entries: normals become 0, or 1 when the anomaly code is 0; other anomaly codes become 1; everything else is kept |
| Labels.ConvertPred | support_functions.py:309-319 | anomaly codes become 1, other normal codes 0, other entries are kept |
| Labels.ConvertPredCounts | support_functions.py:316-318 | a vector with only the two codes becomes 0/1 with one anomaly per anomaly code |
| Labels.ConvertPredIdentity | support_functions.py:316-318 | a 0/1 vector recoded with anomaly 1 and normal 0 is unchanged |
| Labels.ConvertPredAgrees | support_functions.py:316-318 | with anomaly code neither 0 nor the normal code, the code as written computes the intended recoding |
| Labels.ConvertPredAliasing | support_functions.py:316-318 | [0, 1] with anomaly 0 and normal 1 becomes [1, 1] as written, [1, 0] as intended |
| Labels.ConvertPredAnomalyZero | support_functions.py:316-318 | with anomaly code 0 every normal entry comes out as 1, for every vector |
| Labels.ConvertPredInPlace | support_functions.py:316-319 | the caller's array is rewritten in place to the as-written result, and that same array is returned |

## Left out

- Plotting and printing: every `plot_*` helper and the `to_print` branches of the selectors, `eval_with_test` and the `train_test_with_*` functions. These are display side effects with no returned value.
- Score producers: `find_euclidean_distance`, `estimate_gaussian`, `fit_multivariate_gaussian` and the scipy density. Their outputs are the score parameters of the selectors and of the `train_test_with_*` methods. They are floating-point numerics over external libraries.
- Whitening and cross-validation: `whitening_cov`, `compare_var`, `fit_gaussian_with_whiten_and_cv`, `frange`, the PCA drivers and `KFold`. These are glue over collaborators whose code is not part of this model.
- Randomness: `np.random.permutation` and `random.shuffle` are permutation parameters. `np.argsort` is a ranking parameter, and numpy's tie order is left open.
- Floating point: `int(m * ratio)` is computed on the exact product. A float product can fall just below an integer and truncate one lower: `100 * 0.29` is 28.999999999999996 in doubles, so `int()` gives 28 where the exact product gives 29. That is not modelled.
- Thresholds.SelectThresholdDistance, Thresholds.SelectThresholdProbability, Thresholds.TrainTestWithReconstructionError, Thresholds.TrainTestWithGaussian: the float `np.arange` grid is represented by any `IsSweepGrid` sequence, so the exact number of candidates (100 or 101 in floats, the last possibly at max) is not pinned down. `UniformGrid` gives the exact-real hundred points and `GridEndingAtMax` the 101-point float case.
- Thresholds.SelectThresholdDistance: the `r` argument is ignored by the source and does not appear in the model. The caller's `r_train = sum(labels_train)` goes with it.
- Metrics.EvalPrediction, Metrics.EvaluatePred, Metrics.EvalWithTest, Thresholds.SelectThresholdDistance, Thresholds.SelectThresholdProbability, Thresholds.TrainTestWithReconstructionError, Thresholds.TrainTestWithGaussian: predictions and labels (or scores and labels) must have equal lengths. With unequal lengths numpy raises a ValueError on the element-wise masks, or broadcasts when one side has length 1; neither path is modelled. Every caller in the source passes matching vectors.
- Thresholds.SelectThresholdDistance, Thresholds.SelectThresholdProbability, Thresholds.TrainTestWithReconstructionError, Thresholds.TrainTestWithGaussian: NaN scores are not modelled; scores are reals.
- Thresholds.Sweep: precision, recall and F1 are exact reals, so `if f1 > best_f1` (support_functions.py:256, 298) compares exact values. Two candidates whose float F1 differ only by rounding, or tie only after rounding, may be ordered differently by the program than by the model.
- Thresholds.SelectThresholdDistance: raising anomaly scores can lower the best F1 the selector finds, because the grid is rebuilt from the new minimum and maximum. Monotonicity holds only over a fixed grid (`Thresholds.SweepBestMonotone`); `Thresholds.RebuiltGridLowersBest` gives an input where the rebuilt grid loses it.
- Splits.SplitTraining: the `while 1` loop draws fresh permutations without bound. The model tries each permutation of a finite supplied list once and returns None when none is accepted; it says nothing about termination.
- Splits.SplitTrainEvalTest: the partition is proved for ratio_val >= 0. A negative ratio_val makes `int(m*ratio_val)` negative: the prefix it would return as validation is non-empty but dropped, because validation is only returned for ratio_val > 0.
- `split_data_labels_training_testing`: only gathers data and labels through the indices `split_training` returns (`Seqs.Gather`); it is not modelled separately.

## Findings

| source | as written | input that shows it | evidently intended | confidence | as-written member | corrected member |
|---|---|---|---|---|---|---|
| support_functions.py:91-93 | `group1 = ind[:size1-1]`, `group2 = ind[size1:]`: the index at position size1-1 is in neither group, and at size1 = 0 the groups overlap | `perm_and_split(5, 0.8)` with the identity permutation gives [0,1,2] and [4], losing 3; `perm_and_split(2, 0.2)` gives [0] and [0,1] | `ind[:size1]` and `ind[size1:]`, a partition of range(m) | not executed | Splits.PermAndSplitLosesOne | Splits.SplitIntendedPartition |
| support_functions.py:107-108 | `train_ind = ind[:training_size-1]` drops one index from both groups; at training size 1 the training group is always empty and the loop never exits | any labels with int(m*ratio) = 1, e.g. m = 5, ratio 0.2 | `ind[:training_size]` | not executed | Splits.TrainingSizeOne | Splits.SplitIntendedPartition |
| support_functions.py:316-318 | `pred_output = pred` aliases the input, so the anomaly mask is taken after normals were set to 0; with label_Anomaly = 0 every normal becomes an anomaly | `convert_pred([0, 1], 0, 1)` returns [1, 1] | both masks on the original values: [1, 0] | not executed | Labels.ConvertPredAliasing | Labels.ConvertPred |

=== FILE: labels.dfy ===
/** Label encodings: `label_anomaly` turns digit labels into 0/1 anomaly
    labels, and `convert_pred` recodes a prediction vector written with
    arbitrary normal/anomaly codes into 0/1. */
module Labels {
  import opened Seqs

  /** `label_anomaly(labels_input, anomaly_digit)`: 1 where the digit is the
      anomaly digit, 0 elsewhere. */
  function LabelAnomaly(input: seq<int>, digit: int): (r: seq<int>)
    ensures |r| == |input|
    ensures IsBinary(r)
    ensures forall i :: 0 <= i < |input| ==> (r[i] == 1 <==> input[i] == digit)
  {
    seq(|input|, i requires 0 <= i < |input| => if input[i] == digit then 1 else 0)
  }

  /** The anomaly count is the number of occurrences of the anomaly digit,
      and the normal count the rest. */
  lemma {:induction false} LabelAnomalyCounts(input: seq<int>, digit: int)
    ensures Count(LabelAnomaly(input, digit), 1) == Count(input, digit)
    ensures Count(LabelAnomaly(input, digit), 0) == |input| - Count(input, digit)
    decreases |input|
  {
    if |input| > 0 {
      var n := |input| - 1;
      LabelAnomalyCounts(input[..n], digit);
      assert LabelAnomaly(input, digit)[..n] == LabelAnomaly(input[..n], digit);
    }
  }

  /** Labelling commutes with selecting samples: labelling a split is
      splitting the labelling. */
  lemma LabelAnomalyGather(input: seq<int>, digit: int, idx: seq<nat>)
    requires InBounds(idx, |input|)
    ensures LabelAnomaly(Gather(input, idx), digit) == Gather(LabelAnomaly(input, digit), idx)
  {
  }

  // ---------------------------------------------------------------------
  // convert_pred
  // ---------------------------------------------------------------------

  /** `convert_pred(pred, label_Anomaly, label_Normal)` as written.
      `pred_output = pred` aliases the input, so the second mask
      `pred == label_Anomaly` is evaluated on the vector the first
      assignment already rewrote: entries first go from `normal` to 0, then
      from `anomaly` to 1. */
  function ConvertPredAsWritten(pred: seq<int>, anomaly: int, normal: int): (out: seq<int>)
    ensures |out| == |pred|
    ensures forall i :: 0 <= i < |pred| && pred[i] == normal ==> out[i] == (if anomaly == 0 then 1 else 0)
    ensures forall i :: 0 <= i < |pred| && pred[i] != normal && pred[i] == anomaly ==> out[i] == 1
    ensures forall i :: 0 <= i < |pred| && pred[i] != normal && pred[i] != anomaly ==> out[i] == pred[i]
  {
    var step := seq(|pred|, i requires 0 <= i < |pred| => if pred[i] == normal then 0 else pred[i]);
    seq(|step|, i requires 0 <= i < |step| => if step[i] == anomaly then 1 else step[i])
  }

  /** The evidently intended recoding, both masks taken on the original
      values: anomalies become 1, normals 0, anything else is kept. The
      anomaly assignment comes last, so it wins when the two codes agree. */
  function ConvertPred(pred: seq<int>, anomaly: int, normal: int): (out: seq<int>)
    ensures |out| == |pred|
    ensures forall i :: 0 <= i < |pred| && pred[i] == anomaly ==> out[i] == 1
    ensures forall i :: 0 <= i < |pred| && pred[i] == normal && pred[i] != anomaly ==> out[i] == 0
    ensures forall i :: 0 <= i < |pred| && pred[i] != normal && pred[i] != anomaly ==> out[i] == pred[i]
  {
    seq(|pred|, i requires 0 <= i < |pred| =>
      if pred[i] == anomaly then 1 else if pred[i] == normal then 0 else pred[i])
  }

  /** Recoding a vector whose only codes are the two given ones yields a 0/1
      vector with one anomaly per anomaly code. */
  lemma {:induction false} ConvertPredCounts(pred: seq<int>, anomaly: int, normal: int)
    requires forall i :: 0 <= i < |pred| ==> pred[i] == anomaly || pred[i] == normal
    ensures IsBinary(ConvertPred(pred, anomaly, normal))
    ensures Count(ConvertPred(pred, anomaly, normal), 1) == Count(pred, anomaly)
    decreases |pred|
  {
    if |pred| > 0 {
      var n := |pred| - 1;
      ConvertPredCounts(pred[..n], anomaly, normal);
      assert ConvertPred(pred, anomaly, normal)[..n] == ConvertPred(pred[..n], anomaly, normal);
    }
  }

  /** Recoding a vector already in 0/1 form with anomaly code 1 and normal
      code 0 changes nothing. */
  lemma ConvertPredIdentity(pred: seq<int>)
    requires IsBinary(pred)
    ensures ConvertPred(pred, 1, 0) == pred
  {
  }

  /** When the anomaly code is neither 0 nor the normal code, the aliasing
      is harmless: the code as written computes the intended recoding. */
  lemma ConvertPredAgrees(pred: seq<int>, anomaly: int, normal: int)
    requires anomaly != 0 && anomaly != normal
    ensures ConvertPredAsWritten(pred, anomaly, normal) == ConvertPred(pred, anomaly, normal)
  {
  }

  /** With anomaly code 0 the code as written turns every normal into an
      anomaly: [0, 1] with anomaly 0 and normal 1 becomes [1, 1] instead of
      [1, 0]. */
  lemma ConvertPredAliasing()
    ensures ConvertPredAsWritten([0, 1], 0, 1) == [1, 1]
    ensures ConvertPred([0, 1], 0, 1) == [1, 0]
  {
  }

  /** With anomaly code 0 every normal entry comes out as 1, for every
      vector. */
  lemma ConvertPredAnomalyZero(pred: seq<int>, normal: int)
    ensures forall i :: 0 <= i < |pred| && pred[i] == normal ==> ConvertPredAsWritten(pred, 0, normal)[i] == 1
  {
  }

  /** The numpy function also rewrites the caller's array in place, since
      `pred_output` is `pred`; the returned array is the argument. */
  method ConvertPredInPlace(pred: array<int>, anomaly: int, normal: int) returns (out: array<int>)
    modifies pred
    ensures out == pred
    ensures pred[..] == ConvertPredAsWritten(old(pred[..]), anomaly, normal)
  {
    ghost var original := pred[..];
    var i := 0;
    while i < pred.Length
      invariant 0 <= i <= pred.Length
      invariant forall j :: 0 <= j < i ==> pred[j] == (if original[j] == normal then 0 else original[j])
      invariant forall j :: i <= j < pred.Length ==> pred[j] == original[j]
    {
      if pred[i] == normal {
        pred[i] := 0;
      }
      i := i + 1;
    }
    ghost var step := pred[..];
    i := 0;
    while i < pred.Length
      invariant 0 <= i <= pred.Length
      invariant forall j :: 0 <= j < i ==> pred[j] == (if step[j] == anomaly then 1 else step[j])
      invariant forall j :: i <= j < pred.Length ==> pred[j] == step[j]
    {
      if pred[i] == anomaly {
        pred[i] := 1;
      }
      i := i + 1;
    }
    return pred;
  }
}

=== FILE: metrics.dfy ===
/** The metric engine of `support_functions.py`: confusion counts from
    prediction/label masks, precision, recall and F with a floor-one
    denominator, Precision@K and R-Precision over a vector that is already
    ranked, and the three evaluation entry points `eval_prediction`,
    `evaluate_pred` and `eval_with_test`.

    Predictions and labels are integer vectors. The confusion counts only
    ask whether an entry equals 0 or 1, so any other value simply falls
    outside every confusion cell, as it does under numpy's `==` masks. The
    one exception is R in `find_r_prec`, which is `sum(Labels)` of the label
    values themselves; it is the number of anomalies only for 0/1 labels. */
module Metrics {
  import opened Seqs

  // ---------------------------------------------------------------------
  // Masks and counts
  // ---------------------------------------------------------------------

  /** Positions where the prediction equals a and the label equals b:
      `np.sum(np.logical_and(pred == a, yval == b))`. */
  function MaskCount(preds: seq<int>, labels: seq<int>, a: int, b: int): nat
    requires |preds| == |labels|
    decreases |preds|
  {
    if |preds| == 0 then 0
    else MaskCount(preds[..|preds| - 1], labels[..|labels| - 1], a, b)
         + (if preds[|preds| - 1] == a && labels[|labels| - 1] == b then 1 else 0)
  }

  /** Boolean-mask indexing `xs[mask == a]`. */
  function Where(xs: seq<int>, mask: seq<int>, a: int): (r: seq<int>)
    requires |xs| == |mask|
    ensures |r| == Count(mask, a)
    decreases |xs|
  {
    if |xs| == 0 then []
    else Where(xs[..|xs| - 1], mask[..|mask| - 1], a)
         + (if mask[|mask| - 1] == a then [xs[|xs| - 1]] else [])
  }

  /** `sum((xs == a) == (ys == b))`: the positions where the two comparisons
      agree. */
  function AgreeCount(xs: seq<int>, ys: seq<int>, a: int, b: int): nat
    requires |xs| == |ys|
    decreases |xs|
  {
    if |xs| == 0 then 0
    else AgreeCount(xs[..|xs| - 1], ys[..|ys| - 1], a, b)
         + (if (xs[|xs| - 1] == a) == (ys[|ys| - 1] == b) then 1 else 0)
  }

  /** The confusion matrix of a prediction vector against a label vector. */
  datatype Counts = Counts(tp: nat, tn: nat, fp: nat, fn: nat)

  function Confusion(preds: seq<int>, labels: seq<int>): Counts
    requires |preds| == |labels|
  {
    Counts(MaskCount(preds, labels, 1, 1), MaskCount(preds, labels, 0, 0),
           MaskCount(preds, labels, 1, 0), MaskCount(preds, labels, 0, 1))
  }

  // ---------------------------------------------------------------------
  // Ratios with the floor-one denominator
  // ---------------------------------------------------------------------

  /** `num / max(1, den)`: a zero denominator yields 0 rather than NaN. */
  function Frac(num: nat, den: nat): (r: real)
    ensures r >= 0.0
    ensures r == 0.0 <==> num == 0
    ensures num <= den ==> r <= 1.0
    ensures num <= den ==> (r == 1.0 <==> num == den && num > 0)
  {
    num as real / (if den >= 1 then den else 1) as real
  }

  /** `tp / max(1, tp + fp)`. */
  function Precision(c: Counts): (r: real)
    ensures 0.0 <= r <= 1.0
    ensures r == 0.0 <==> c.tp == 0
    ensures r == 1.0 <==> c.tp > 0 && c.fp == 0
  {
    Frac(c.tp, c.tp + c.fp)
  }

  /** `tp / max(1, tp + fn)`. */
  function Recall(c: Counts): (r: real)
    ensures 0.0 <= r <= 1.0
    ensures r == 0.0 <==> c.tp == 0
    ensures r == 1.0 <==> c.tp > 0 && c.fn == 0
  {
    Frac(c.tp, c.tp + c.fn)
  }

  /** `2 * p * r / max(1, p + r)`. When p + r < 1 the denominator is 1, so
      this is 2pr and not the harmonic mean (see FScoreVersusHarmonicMean). */
  function FScore(p: real, r: real): real {
    2.0 * (p * r) / (if p + r > 1.0 then p + r else 1.0)
  }

  /** The harmonic mean of precision and recall, the textbook F1. */
  function HarmonicMean(p: real, r: real): real {
    if p + r == 0.0 then 0.0 else 2.0 * (p * r) / (p + r)
  }

  lemma MulNonneg(x: real, y: real)
    requires 0.0 <= x && 0.0 <= y
    ensures 0.0 <= x * y
  {
  }

  lemma MulPos(x: real, y: real)
    requires 0.0 < x && 0.0 < y
    ensures 0.0 < x * y
  {
  }

  /** x * y <= x for x >= 0 and y <= 1. */
  lemma MulAtMost(x: real, y: real)
    requires 0.0 <= x && y <= 1.0
    ensures x * y <= x
  {
    MulNonneg(x, 1.0 - y);
  }

  /** x * y <= y for y >= 0 and x <= 1. */
  lemma MulAtMostRight(x: real, y: real)
    requires x <= 1.0 && 0.0 <= y
    ensures x * y <= y
  {
    MulNonneg(1.0 - x, y);
  }

  /** Bounds on the product of two numbers in [0, 1]. */
  lemma ProductBounds(p: real, r: real)
    requires 0.0 <= p <= 1.0 && 0.0 <= r <= 1.0
    ensures 0.0 <= p * r <= p && p * r <= r
    ensures 2.0 * (p * r) <= p + r
    ensures p * r == 0.0 <==> p == 0.0 || r == 0.0
  {
    var pr := p * r;
    assert pr <= p by { MulAtMost(p, r); }
    assert pr <= r by { MulAtMostRight(p, r); }
    assert 0.0 <= pr by { MulNonneg(p, r); }
    assert pr + pr <= p + r;
    assert 2.0 * pr == pr + pr;
    if p > 0.0 && r > 0.0 {
      MulPos(p, r);
    } else if p == 0.0 {
      assert p * r == 0.0 * r == 0.0;
    } else {
      assert p * r == p * 0.0 == 0.0;
    }
  }

  /** 2pr reaches p + r only at p = r = 1 (or p = r = 0). */
  lemma ProductTight(p: real, r: real)
    requires 0.0 < p <= 1.0 && 0.0 < r <= 1.0
    requires 2.0 * (p * r) == p + r
    ensures p == 1.0 && r == 1.0
  {
    var pr := p * r;
    ProductBounds(p, r);
    assert pr == p && pr == r;
  }

  /** x / d lies in [0, 1] when 0 <= x <= d. */
  lemma DivUnit(x: real, d: real)
    requires 0.0 <= x <= d && d > 0.0
    ensures 0.0 <= x / d <= 1.0
    ensures x / d == 1.0 <==> x == d
    ensures x / d == 0.0 <==> x == 0.0
  {
  }

  lemma FScoreBounds(p: real, r: real)
    requires 0.0 <= p <= 1.0 && 0.0 <= r <= 1.0
    ensures 0.0 <= FScore(p, r) <= 1.0
    ensures FScore(p, r) == 0.0 <==> p == 0.0 || r == 0.0
    ensures FScore(p, r) == 1.0 <==> p == 1.0 && r == 1.0
  {
    var d := if p + r > 1.0 then p + r else 1.0;
    var x := 2.0 * (p * r);
    ProductBounds(p, r);
    assert x <= d;
    DivUnit(x, d);
    assert FScore(p, r) == x / d;
    if x == d {
      assert x == p + r;
      ProductTight(p, r);
    }
  }

  /** The F of the source equals the harmonic mean when p + r >= 1, and is
      strictly smaller than it when 0 < p + r < 1 with both p and r positive. */
  lemma FScoreVersusHarmonicMean(p: real, r: real)
    requires 0.0 <= p <= 1.0 && 0.0 <= r <= 1.0
    ensures p + r >= 1.0 ==> FScore(p, r) == HarmonicMean(p, r)
    ensures p > 0.0 && r > 0.0 && p + r < 1.0 ==> FScore(p, r) < HarmonicMean(p, r)
  {
    if p > 0.0 && r > 0.0 && p + r < 1.0 {
      var h := HarmonicMean(p, r);
      var x := 2.0 * (p * r);
      MulPos(p, r);
      assert h == x / (p + r);
      assert FScore(p, r) == x;
      DivBySmall(x, p + r);
    }
  }

  lemma DivPos(x: real, d: real)
    requires x > 0.0 && d > 0.0
    ensures x / d > 0.0
  {
  }

  /** q * d == x with d in (0, 1) forces q above x. */
  lemma ScaledUp(q: real, d: real, x: real)
    requires x > 0.0 && 0.0 < d < 1.0 && q * d == x && q > 0.0
    ensures q > x
  {
    var e := 1.0 - d;
    MulPos(q, e);
    var c := q * e;
    assert c + q * d == q;
  }

  /** Dividing a positive number by something in (0, 1) makes it larger. */
  lemma DivBySmall(x: real, d: real)
    requires x > 0.0 && 0.0 < d < 1.0
    ensures x / d > x
  {
    DivPos(x, d);
    ScaledUp(x / d, d, x);
  }

  /** F of a confusion matrix: `f1` of `eval_prediction`, `F` of
      `evaluate_pred`. */
  function F1(c: Counts): (f: real)
    ensures 0.0 <= f <= 1.0
    ensures f == 0.0 <==> c.tp == 0
    ensures f == 1.0 <==> c.tp > 0 && c.fp == 0 && c.fn == 0
  {
    FScoreBounds(Precision(c), Recall(c));
    FScore(Precision(c), Recall(c))
  }

  /** a / b <= c / d for positive b and d when a * d <= c * b. */
  lemma DivMono(a: real, b: real, c: real, d: real)
    requires b > 0.0 && d > 0.0 && a * d <= c * b
    ensures a / b <= c / d
  {
  }

  /** More hits with the same false alarms never lower precision. */
  lemma PrecisionMono(c: Counts, d: Counts)
    requires c.tp <= d.tp && c.fp == d.fp
    ensures Precision(c) <= Precision(d)
  {
    if c.tp > 0 {
      var t, u, f := c.tp as real, d.tp as real, c.fp as real;
      assert Precision(c) == t / (t + f) && Precision(d) == u / (u + f);
      MulNonneg(u - t, f);
      assert t * (u + f) == t * u + t * f;
      assert u * (t + f) == t * u + u * f;
      assert (u - t) * f == u * f - t * f;
      DivMono(t, t + f, u, u + f);
    }
  }

  /** More hits among the same anomalies never lower recall. */
  lemma RecallMono(c: Counts, d: Counts)
    requires c.tp <= d.tp && c.tp + c.fn == d.tp + d.fn
    ensures Recall(c) <= Recall(d)
  {
    var n := c.tp + c.fn;
    var den := (if n >= 1 then n else 1) as real;
    var t, u := c.tp as real, d.tp as real;
    assert Recall(c) == t / den && Recall(d) == u / den;
    MulNonneg(u - t, den);
    assert (u - t) * den == u * den - t * den;
    DivMono(t, den, u, den);
  }

  /** FScore does not decrease in its first argument. */
  lemma FScoreMonoLeft(p: real, q: real, r: real)
    requires 0.0 <= p <= q <= 1.0 && 0.0 <= r <= 1.0
    ensures FScore(p, r) <= FScore(q, r)
  {
    if q + r <= 1.0 {
      MulNonneg(q - p, r);
      assert (q - p) * r == q * r - p * r;
      assert FScore(p, r) == 2.0 * (p * r) && FScore(q, r) == 2.0 * (q * r);
    } else if p + r <= 1.0 {
      FScoreMonoCross(p, q, r);
    } else {
      FScoreMonoAbove(p, q, r);
    }
  }

  /** The step from 2pr (p + r <= 1) to the harmonic branch (q + r > 1). */
  lemma FScoreMonoCross(p: real, q: real, r: real)
    requires 0.0 <= p <= q <= 1.0 && 0.0 <= r <= 1.0
    requires p + r <= 1.0 < q + r
    ensures FScore(p, r) <= FScore(q, r)
  {
    var a, c := 2.0 * (p * r), 2.0 * (q * r);
    CrossProducts(p, q, r);
    assert FScore(p, r) == a / 1.0;
    assert FScore(q, r) == c / (q + r);
    DivMono(a, 1.0, c, q + r);
  }

  /** 2pr (q + r) <= 2qr when p + r <= 1 and p <= q. */
  lemma CrossProducts(p: real, q: real, r: real)
    requires 0.0 <= p <= q <= 1.0 && 0.0 <= r <= 1.0 && p + r <= 1.0
    ensures (2.0 * (p * r)) * (q + r) <= (2.0 * (q * r)) * 1.0
  {
    var s := p * (q + r);
    CrossBound(p, q, r);
    MulNonneg(r, q - s);
    assert r * (q - s) == r * q - r * s;
    assert (2.0 * (p * r)) * (q + r) == 2.0 * (r * s);
  }

  /** p (q + r) <= p (q + 1 - p) <= q, since q - p (q + 1 - p) is
      (1 - p)(q - p). */
  lemma CrossBound(p: real, q: real, r: real)
    requires 0.0 <= p <= q <= 1.0 && 0.0 <= r && p + r <= 1.0
    ensures p * (q + r) <= q
  {
    MulNonneg(p, 1.0 - p - r);
    assert p * (1.0 - p - r) == p - p * p - p * r;
    MulNonneg(1.0 - p, q - p);
    assert (1.0 - p) * (q - p) == q - p * q - p + p * p;
    assert p * (q + r) == p * q + p * r;
  }

  /** Both on the harmonic branch: p r (q + r) <= q r (p + r), since the
      difference is (q - p) r r. */
  lemma FScoreMonoAbove(p: real, q: real, r: real)
    requires 0.0 <= p <= q <= 1.0 && 0.0 <= r <= 1.0
    requires 1.0 < p + r
    ensures FScore(p, r) <= FScore(q, r)
  {
    var a, c := 2.0 * (p * r), 2.0 * (q * r);
    var rr := r * r;
    assert a * (q + r) <= c * (p + r) by {
      MulNonneg(q - p, rr);
      assert (q - p) * rr == q * rr - p * rr;
      assert a * (q + r) == 2.0 * ((p * r) * q) + 2.0 * (p * rr);
      assert c * (p + r) == 2.0 * ((p * r) * q) + 2.0 * (q * rr);
    }
    DivMono(a, p + r, c, q + r);
  }

  /** FScore does not decrease in either argument. */
  lemma FScoreMono(p: real, r: real, p': real, r': real)
    requires 0.0 <= p <= p' <= 1.0 && 0.0 <= r <= r' <= 1.0
    ensures FScore(p, r) <= FScore(p', r')
  {
    FScoreMonoLeft(p, p', r);
    assert FScore(p', r) == FScore(r, p') by { assert p' * r == r * p'; }
    FScoreMonoLeft(r, r', p');
    assert FScore(r', p') == FScore(p', r') by { assert p' * r' == r' * p'; }
  }

  /** More hits with the same false alarms and the same anomalies never
      lower F1. */
  lemma F1Mono(c: Counts, d: Counts)
    requires c.tp <= d.tp && c.fp == d.fp && c.tp + c.fn == d.tp + d.fn
    ensures F1(c) <= F1(d)
  {
    PrecisionMono(c, d);
    RecallMono(c, d);
    FScoreMono(Precision(c), Recall(c), Precision(d), Recall(d));
  }

  /** q flags at least the anomalies p flags and agrees with p on every
      other sample: q has at least p's hits, the same false alarms and the
      same hits plus misses. */
  lemma {:induction false} MoreHitsCounts(p: seq<int>, q: seq<int>, labels: seq<int>)
    requires |p| == |labels| && |q| == |labels|
    requires IsBinary(p) && IsBinary(q)
    requires forall i :: 0 <= i < |labels| && labels[i] != 1 ==> q[i] == p[i]
    requires forall i :: 0 <= i < |labels| && labels[i] == 1 && p[i] == 1 ==> q[i] == 1
    ensures MaskCount(p, labels, 1, 1) <= MaskCount(q, labels, 1, 1)
    ensures MaskCount(p, labels, 1, 0) == MaskCount(q, labels, 1, 0)
    ensures MaskCount(p, labels, 1, 1) + MaskCount(p, labels, 0, 1)
         == MaskCount(q, labels, 1, 1) + MaskCount(q, labels, 0, 1)
    decreases |labels|
  {
    if |labels| > 0 {
      var n := |labels| - 1;
      MoreHitsCounts(p[..n], q[..n], labels[..n]);
    }
  }

  /** The comment next to `eval_prediction` calls `2tp / (2tp + fn + fp)` a
      more direct version of f1. The two agree whenever precision plus recall
      reaches 1. */
  lemma F1DirectFormula(c: Counts)
    requires c.tp > 0
    requires Precision(c) + Recall(c) >= 1.0
    ensures F1(c) == (2 * c.tp) as real / (2 * c.tp + c.fn + c.fp) as real
  {
    var t := c.tp as real;
    var a := (c.tp + c.fp) as real;
    var b := (c.tp + c.fn) as real;
    var p := Precision(c);
    var r := Recall(c);
    assert p == t / a && r == t / b;
    assert p * a == t && r * b == t;
    var f := F1(c);
    assert f * (p + r) == 2.0 * p * r;
    // Multiply through by a * b: f * t * (a + b) == 2 * t * t.
    assert (p + r) * (a * b) == t * (a + b) by {
      calc {
        (p + r) * (a * b);
        (p * a) * b + (r * b) * a;
        t * b + t * a;
      }
    }
    assert (2.0 * p * r) * (a * b) == 2.0 * t * t by {
      calc {
        (2.0 * p * r) * (a * b);
        2.0 * (p * a) * (r * b);
        2.0 * t * t;
      }
    }
    assert f * t * (a + b) == 2.0 * t * t;
    assert f * (a + b) == 2.0 * t;
  }

  /** Precision = recall = 1/4 (one hit, three false alarms, three misses):
      the source's F is 1/8 while the harmonic mean and `2tp / (2tp + fn + fp)`
      are both 1/4. */
  lemma F1Quirk()
    ensures Precision(Counts(1, 0, 3, 3)) == 0.25
    ensures Recall(Counts(1, 0, 3, 3)) == 0.25
    ensures F1(Counts(1, 0, 3, 3)) == 0.125
    ensures HarmonicMean(0.25, 0.25) == 0.25
    ensures (2 * 1) as real / (2 * 1 + 3 + 3) as real == 0.25
  {
  }

  // ---------------------------------------------------------------------
  // Mask lemmas
  // ---------------------------------------------------------------------

  /** Counting agreements among the entries the mask `preds == a` selects is
      counting positions with prediction a and label b: this is why the
      masked sums of `evaluate_pred` and `find_prec_k` give the confusion
      counts. */
  lemma {:induction false} WhereAgree(preds: seq<int>, labels: seq<int>, a: int, b: int)
    requires |preds| == |labels|
    ensures AgreeCount(Where(preds, preds, a), Where(labels, preds, a), a, b)
         == MaskCount(preds, labels, a, b)
    decreases |preds|
  {
    if |preds| > 0 {
      var n := |preds| - 1;
      WhereAgree(preds[..n], labels[..n], a, b);
      var xs := Where(preds[..n], preds[..n], a);
      var ys := Where(labels[..n], preds[..n], a);
      if preds[n] == a {
        assert Where(preds, preds, a) == xs + [preds[n]];
        assert Where(labels, preds, a) == ys + [labels[n]];
        assert (xs + [preds[n]])[..|xs|] == xs;
        assert (ys + [labels[n]])[..|ys|] == ys;
      } else {
        assert Where(preds, preds, a) == xs;
        assert Where(labels, preds, a) == ys;
      }
    }
  }

  /** With 0/1 labels, the positions predicted a split into those labelled 1
      and those labelled 0. */
  lemma {:induction false} MaskCountSplit(preds: seq<int>, labels: seq<int>, a: int)
    requires |preds| == |labels|
    requires IsBinary(labels)
    ensures MaskCount(preds, labels, a, 1) + MaskCount(preds, labels, a, 0) == Count(preds, a)
    decreases |preds|
  {
    if |preds| > 0 {
      MaskCountSplit(preds[..|preds| - 1], labels[..|labels| - 1], a);
    }
  }

  /** With 0/1 predictions, the positions labelled b split into those
      predicted 1 and those predicted 0. */
  lemma {:induction false} MaskCountSplitLabels(preds: seq<int>, labels: seq<int>, b: int)
    requires |preds| == |labels|
    requires IsBinary(preds)
    ensures MaskCount(preds, labels, 1, b) + MaskCount(preds, labels, 0, b) == Count(labels, b)
    decreases |preds|
  {
    if |preds| > 0 {
      MaskCountSplitLabels(preds[..|preds| - 1], labels[..|labels| - 1], b);
    }
  }

  /** For 0/1 vectors the four confusion cells cover every position once. */
  lemma ConfusionTotal(preds: seq<int>, labels: seq<int>)
    requires |preds| == |labels|
    requires IsBinary(preds) && IsBinary(labels)
    ensures var c := Confusion(preds, labels); c.tp + c.tn + c.fp + c.fn == |preds|
  {
    MaskCountSplit(preds, labels, 1);
    MaskCountSplit(preds, labels, 0);
    CountBinary(preds);
  }

  /** A confusion cell is the multiplicity of its (prediction, label) pair. */
  lemma {:induction false} MaskCountZip(preds: seq<int>, labels: seq<int>, a: int, b: int)
    requires |preds| == |labels|
    ensures MaskCount(preds, labels, a, b) == multiset(Zip(preds, labels))[(a, b)]
    decreases |preds|
  {
    if |preds| > 0 {
      var n := |preds| - 1;
      MaskCountZip(preds[..n], labels[..n], a, b);
      assert Zip(preds, labels) == Zip(preds[..n], labels[..n]) + [(preds[n], labels[n])];
    }
  }

  /** Where every entry is predicted 1, the hits are the anomalies and the
      false alarms are the normals. */
  lemma {:induction false} AllPredictedCounts(preds: seq<int>, labels: seq<int>)
    requires |preds| == |labels|
    requires forall i :: 0 <= i < |preds| ==> preds[i] == 1
    ensures MaskCount(preds, labels, 1, 1) == Count(labels, 1)
    ensures MaskCount(preds, labels, 1, 0) == Count(labels, 0)
    decreases |preds|
  {
    if |preds| > 0 {
      AllPredictedCounts(preds[..|preds| - 1], labels[..|labels| - 1]);
    }
  }

  /** The precision of an all-flagged cut of 0/1 labels is its share of
      anomalies. */
  lemma AllPredictedPrecision(preds: seq<int>, labels: seq<int>)
    requires |preds| == |labels|
    requires forall i :: 0 <= i < |preds| ==> preds[i] == 1
    requires IsBinary(labels)
    ensures Precision(Confusion(preds, labels)) == Frac(Count(labels, 1), |labels|)
  {
    AllPredictedCounts(preds, labels);
    CountBinary(labels);
  }

  /** Without a position predicted 1 and labelled 1 there is no true
      positive. */
  lemma {:induction false} NoHits(preds: seq<int>, labels: seq<int>)
    requires |preds| == |labels|
    requires forall i :: 0 <= i < |preds| && labels[i] == 1 ==> preds[i] != 1
    ensures MaskCount(preds, labels, 1, 1) == 0
    decreases |preds|
  {
    if |preds| > 0 {
      NoHits(preds[..|preds| - 1], labels[..|labels| - 1]);
    }
  }

  /** Each confusion cell counts its (prediction, label) pair among the
      zipped vectors. */
  lemma ConfusionOfPairs(preds: seq<int>, labels: seq<int>)
    requires |preds| == |labels|
    ensures var z := multiset(Zip(preds, labels));
      Confusion(preds, labels) == Counts(z[(1, 1)], z[(0, 0)], z[(1, 0)], z[(0, 1)])
  {
    MaskCountZip(preds, labels, 1, 1);
    MaskCountZip(preds, labels, 0, 0);
    MaskCountZip(preds, labels, 1, 0);
    MaskCountZip(preds, labels, 0, 1);
  }

  /** Reordering predictions and labels by the same permutation (a ranking)
      leaves the confusion counts, hence precision, recall and F, unchanged. */
  lemma ConfusionPermutationInvariant(preds: seq<int>, labels: seq<int>, rank: seq<nat>)
    requires |preds| == |labels|
    requires IsPermutation(rank, |preds|)
    ensures Confusion(Gather(preds, rank), Gather(labels, rank)) == Confusion(preds, labels)
  {
    var zipped := Zip(preds, labels);
    assert Zip(Gather(preds, rank), Gather(labels, rank)) == Gather(zipped, rank);
    GatherPermutation(zipped, rank);
    MaskCountZip(preds, labels, 1, 1);
    MaskCountZip(preds, labels, 0, 0);
    MaskCountZip(preds, labels, 1, 0);
    MaskCountZip(preds, labels, 0, 1);
    var gp, gl := Gather(preds, rank), Gather(labels, rank);
    MaskCountZip(gp, gl, 1, 1);
    MaskCountZip(gp, gl, 0, 0);
    MaskCountZip(gp, gl, 1, 0);
    MaskCountZip(gp, gl, 0, 1);
  }

  // ---------------------------------------------------------------------
  // Ranked metrics
  // ---------------------------------------------------------------------

  /** `find_prec_k`: over the first `min(k, len)` entries (Python `[0:k]`, so
      a negative k drops entries from the end), the positions predicted 1
      whose label is 1, over `max(1, positions predicted 1 whose label is 1
      or 0)`. The ranking is the caller's: nothing is sorted here. */
  function PrecisionAtK(preds: seq<int>, labels: seq<int>, k: int): (r: real)
    requires |preds| == |labels|
    ensures 0.0 <= r <= 1.0
    ensures r == Precision(Confusion(PyPrefix(preds, k), PyPrefix(labels, k)))
    ensures k == 0 ==> r == 0.0
  {
    var n := SliceEnd(|preds|, k);
    var pk := preds[..n];
    var lk := labels[..n];
    var tpk := AgreeCount(Where(pk, pk, 1), Where(lk, pk, 1), 1, 1);
    var fpk := AgreeCount(Where(pk, pk, 1), Where(lk, pk, 1), 1, 0);
    WhereAgree(pk, lk, 1, 1);
    WhereAgree(pk, lk, 1, 0);
    Frac(tpk, tpk + fpk)
  }

  /** With 0/1 labels, Precision@K is the hits among the first K over the
      number of positive predictions among the first K (floored at 1). */
  lemma PrecisionAtKBinary(preds: seq<int>, labels: seq<int>, k: int)
    requires |preds| == |labels|
    requires IsBinary(labels)
    ensures PrecisionAtK(preds, labels, k)
         == Frac(MaskCount(PyPrefix(preds, k), PyPrefix(labels, k), 1, 1),
                 Count(PyPrefix(preds, k), 1))
  {
    var pk := PyPrefix(preds, k);
    var lk := PyPrefix(labels, k);
    assert IsBinary(lk);
    MaskCountSplit(pk, lk, 1);
  }

  /** `find_r_prec`: R is `sum(Labels)` and R-Precision is Precision@R. */
  function RPrecision(preds: seq<int>, labels: seq<int>): (r: (real, int))
    requires |preds| == |labels|
    ensures 0.0 <= r.0 <= 1.0
    ensures IsBinary(labels) ==> r.1 == Count(labels, 1)
    ensures r.1 == 0 ==> r.0 == 0.0
  {
    SumBinary(labels);
    var R := Sum(labels);
    (PrecisionAtK(preds, labels, R), R)
  }

  /** A ranking whose first R entries are all predicted 1 and labelled 1 has
      R-Precision 1 (R >= 1 relevant entries). */
  lemma {:induction false} RPrecisionPerfect(preds: seq<int>, labels: seq<int>)
    requires |preds| == |labels|
    requires IsBinary(labels)
    requires Count(labels, 1) >= 1
    requires forall i :: 0 <= i < |labels| && i < Count(labels, 1) ==> preds[i] == 1 && labels[i] == 1
    ensures RPrecision(preds, labels).0 == 1.0
  {
    var R := Count(labels, 1);
    CountBinary(labels);
    var pk := PyPrefix(preds, R);
    var lk := PyPrefix(labels, R);
    assert |pk| == R;
    AllHits(pk, lk);
  }

  /** Every position predicted 1 and labelled 1: all hits, no false
      alarms. */
  lemma {:induction false} AllHits(preds: seq<int>, labels: seq<int>)
    requires |preds| == |labels|
    requires forall i :: 0 <= i < |preds| ==> preds[i] == 1 && labels[i] == 1
    ensures MaskCount(preds, labels, 1, 1) == |preds|
    ensures MaskCount(preds, labels, 1, 0) == 0
    decreases |preds|
  {
    if |preds| > 0 {
      AllHits(preds[..|preds| - 1], labels[..|labels| - 1]);
    }
  }

  /** With no relevant entry (no label 1 in a 0/1 vector), R-Precision is 0. */
  lemma RPrecisionNoRelevant(preds: seq<int>, labels: seq<int>)
    requires |preds| == |labels|
    requires IsBinary(labels) && Count(labels, 1) == 0
    ensures RPrecision(preds, labels) == (0.0, 0)
  {
  }

  /** The ranked example: labels ranked as [1,1,0,0,0] with predictions
      [1,1,0,0,0] give Precision@2 = 1 and R-Precision (R = 2) = 1. */
  lemma RankedScenario()
    ensures PrecisionAtK([1, 1, 0, 0, 0], [1, 1, 0, 0, 0], 2) == 1.0
    ensures RPrecision([1, 1, 0, 0, 0], [1, 1, 0, 0, 0]) == (1.0, 2)
  {
    var s := [1, 1, 0, 0, 0];
    assert Count([1], 1) == 1 by { assert [1][..0] == []; }
    assert Count([1, 1], 1) == 2 by { assert [1, 1][..1] == [1]; }
    assert Count([1, 1, 0], 1) == 2 by { assert [1, 1, 0][..2] == [1, 1]; }
    assert Count([1, 1, 0, 0], 1) == 2 by { assert [1, 1, 0, 0][..3] == [1, 1, 0]; }
    assert Count(s, 1) == 2 by { assert s[..4] == [1, 1, 0, 0]; }
    assert IsBinary(s);
    RPrecisionPerfect(s, s);
    assert PyPrefix(s, 2) == [1, 1];
    AllHits([1, 1], [1, 1]);
  }

  // ---------------------------------------------------------------------
  // Evaluation entry points
  // ---------------------------------------------------------------------

  /** A rate `num / den` in numpy float arithmetic: 0/0 is NaN. */
  datatype Ratio = Finite(value: real) | NaN

  function Rate(num: nat, den: nat): Ratio {
    if den == 0 then NaN else Finite(num as real / den as real)
  }

  /** The first four values `eval_prediction` returns: the raw confusion
      counts, or in rate mode TPR, TNR, FPR and FNR. */
  datatype Head =
    | RawCounts(counts: Counts)
    | Rates(tpr: Ratio, tnr: Ratio, fpr: Ratio, fnr: Ratio)

  /** The 7-tuple `eval_prediction` returns. */
  datatype Evaluation = Evaluation(head: Head, f1: real, rPrec: real, precK: real)

  /** `eval_prediction`. Precision@K is taken at `min(k, R)`. */
  function EvalPrediction(preds: seq<int>, labels: seq<int>, k: int, rate: bool): (e: Evaluation)
    requires |preds| == |labels|
    ensures 0.0 <= e.f1 <= 1.0 && 0.0 <= e.rPrec <= 1.0 && 0.0 <= e.precK <= 1.0
    ensures e.head.Rates? <==> rate
    ensures e.f1 == 0.0 <==> MaskCount(preds, labels, 1, 1) == 0
    ensures e.f1 == F1(Confusion(preds, labels))
    ensures !rate ==> e.head == RawCounts(Confusion(preds, labels))
    ensures rate ==> var c, nP := Confusion(preds, labels), Count(labels, 1);
      e.head == Rates(Rate(c.tp, nP), Rate(c.tn, |labels| - nP), Rate(c.fp, |labels| - nP), Rate(c.fn, nP))
    ensures e.rPrec == Precision(Confusion(PyPrefix(preds, Sum(labels)), PyPrefix(labels, Sum(labels))))
    ensures var m := Min(k, Sum(labels));
      e.precK == Precision(Confusion(PyPrefix(preds, m), PyPrefix(labels, m)))
    ensures IsBinary(labels) ==> var m := Min(k, Count(labels, 1));
      e.precK == Precision(Confusion(PyPrefix(preds, m), PyPrefix(labels, m)))
  {
    var c := Confusion(preds, labels);
    var (rPrec, R) := RPrecision(preds, labels);
    var precK := PrecisionAtK(preds, labels, Min(k, R));
    var nP := Count(labels, 1);
    var nN := |labels| - nP;
    var head :=
      if rate then Rates(Rate(c.tp, nP), Rate(c.tn, nN), Rate(c.fp, nN), Rate(c.fn, nP))
      else RawCounts(c);
    Evaluation(head, F1(c), rPrec, precK)
  }

  /** In rate mode, with 0/1 vectors and both classes present, TPR + FNR = 1
      and TNR + FPR = 1. */
  lemma RateModeComplements(preds: seq<int>, labels: seq<int>, k: int)
    requires |preds| == |labels|
    requires IsBinary(preds) && IsBinary(labels)
    requires 0 < Count(labels, 1) < |labels|
    ensures var h := EvalPrediction(preds, labels, k, true).head;
      && h.tpr.Finite? && h.tnr.Finite? && h.fpr.Finite? && h.fnr.Finite?
      && h.tpr.value + h.fnr.value == 1.0
      && h.tnr.value + h.fpr.value == 1.0
  {
    MaskCountSplitLabels(preds, labels, 1);
    MaskCountSplitLabels(preds, labels, 0);
    CountBinary(labels);
    var nP := Count(labels, 1);
    var nN := |labels| - nP;
    var c := Confusion(preds, labels);
    assert c.tp + c.fn == nP;
    assert c.tn + c.fp == nN;
    AddFractions(c.tp, c.fn, nP);
    AddFractions(c.tn, c.fp, nN);
  }

  /** Two rates over the same positive denominator that add up to it sum
      to 1. */
  lemma AddFractions(a: nat, b: nat, n: nat)
    requires n > 0 && a + b == n
    ensures a as real / n as real + b as real / n as real == 1.0
  {
    assert a as real / n as real + b as real / n as real == (a + b) as real / n as real;
  }

  /** `evaluate_pred`: the confusion counts taken through the masks
      `Preds == 1` and `Preds == 0`, returned as (Recall, Precision, F). */
  function EvaluatePred(preds: seq<int>, labels: seq<int>): (r: (real, real, real))
    requires |preds| == |labels|
    ensures var c := Confusion(preds, labels); r == (Recall(c), Precision(c), F1(c))
  {
    var posP := Where(preds, preds, 1);
    var posL := Where(labels, preds, 1);
    var negP := Where(preds, preds, 0);
    var negL := Where(labels, preds, 0);
    var tp := AgreeCount(posP, posL, 1, 1);
    var tn := AgreeCount(negP, negL, 0, 0);
    var fp := AgreeCount(posP, posL, 1, 0);
    var fn := AgreeCount(negP, negL, 0, 1);
    WhereAgree(preds, labels, 1, 1);
    WhereAgree(preds, labels, 0, 0);
    WhereAgree(preds, labels, 1, 0);
    WhereAgree(preds, labels, 0, 1);
    var c := Counts(tp, tn, fp, fn);
    (Recall(c), Precision(c), F1(c))
  }

  /** `evaluate_pred` and `eval_prediction` agree on F, in either mode and
      for any k. */
  lemma EvaluatePredMatchesEvalPrediction(preds: seq<int>, labels: seq<int>, k: int, rate: bool)
    requires |preds| == |labels|
    ensures EvaluatePred(preds, labels).2 == EvalPrediction(preds, labels, k, rate).f1
  {
  }

  /** The value `eval_with_test` returns when it does not print. */
  datatype TestReport = TestReport(recall: real, precision: real, f: real,
                                   rPrec: real, r: int, precK: real)

  /** `eval_with_test` (returning path). Unlike `eval_prediction` it takes
      Precision@K at plain k. */
  function EvalWithTest(preds: seq<int>, labels: seq<int>, k: int): (t: TestReport)
    requires |preds| == |labels|
    ensures 0.0 <= t.recall <= 1.0 && 0.0 <= t.precision <= 1.0 && 0.0 <= t.f <= 1.0
    ensures 0.0 <= t.rPrec <= 1.0 && 0.0 <= t.precK <= 1.0
    ensures t.f == EvalPrediction(preds, labels, k, false).f1
    ensures t.rPrec == EvalPrediction(preds, labels, k, false).rPrec
    ensures IsBinary(labels) ==> t.r == Count(labels, 1)
    ensures k <= t.r ==> t.precK == EvalPrediction(preds, labels, k, false).precK
    ensures var c := Confusion(preds, labels); (t.recall, t.precision, t.f) == (Recall(c), Precision(c), F1(c))
    ensures t.r == Sum(labels)
    ensures t.rPrec == Precision(Confusion(PyPrefix(preds, t.r), PyPrefix(labels, t.r)))
    ensures t.precK == Precision(Confusion(PyPrefix(preds, k), PyPrefix(labels, k)))
  {
    var (recall, precision, f) := EvaluatePred(preds, labels);
    var (rPrec, R) := RPrecision(preds, labels);
    TestReport(recall, precision, f, rPrec, R, PrecisionAtK(preds, labels, k))
  }

  /** The two entry points cut Precision@K differently: `eval_prediction`
      reports what `eval_with_test` would report for k cut down to
      min(k, R), for every input and in either mode. */
  lemma PrecisionAtKCuts(preds: seq<int>, labels: seq<int>, k: int, rate: bool)
    requires |preds| == |labels|
    ensures EvalPrediction(preds, labels, k, rate).precK
         == EvalWithTest(preds, labels, Min(k, Sum(labels))).precK
  {
  }

  /** With more positions asked for than there are relevant entries the two
      entry points report different Precision@K. Predictions [1, 1] against
      labels [1, 0] with k = 2: `eval_prediction` takes min(k, R) = 1
      positions and reports 1 (this lemma), `eval_with_test` takes k = 2
      positions and reports 1/2 (PrecisionAtKInEvalWithTest). */
  lemma PrecisionAtKInEvalPrediction()
    ensures EvalPrediction([1, 1], [1, 0], 2, false).precK == 1.0
  {
    var p, l := [1, 1], [1, 0];
    assert IsBinary(l);
    assert Count(l, 1) == 1 by { assert l[..1] == [1]; assert [1][..0] == []; }
    assert RPrecision(p, l).1 == 1;
    assert PyPrefix(p, 1) == [1] && PyPrefix(l, 1) == [1];
    AllHits([1], [1]);
    assert PrecisionAtK(p, l, 1) == 1.0;
  }

  /** The `eval_with_test` half of PrecisionAtKInEvalPrediction's example. */
  lemma PrecisionAtKInEvalWithTest()
    ensures EvalWithTest([1, 1], [1, 0], 2).precK == 0.5
  {
    var p, l := [1, 1], [1, 0];
    assert PyPrefix(p, 2) == p && PyPrefix(l, 2) == l;
    assert p[..1] == [1] && l[..1] == [1];
    assert MaskCount([1], [1], 1, 1) == 1;
    assert MaskCount([1], [1], 1, 0) == 0;
    assert MaskCount(p, l, 1, 1) == 1;
    assert MaskCount(p, l, 1, 0) == 1;
    assert PrecisionAtK(p, l, 2) == 0.5;
  }
}

=== FILE: seqs.dfy ===
/** Sequence vocabulary shared by the metric engine, the threshold selectors
    and the splitters: Python/numpy slicing, fancy indexing through an index
    vector, permutations of `range(n)`, counting and summing. */
module Seqs {

  /** `range(n)` (also `np.hstack(range(n))`): the indices 0 .. n-1 in order. */
  function Range(n: nat): (r: seq<nat>)
    ensures |r| == n
    ensures forall i :: 0 <= i < n ==> r[i] == i
  {
    seq(n, i requires 0 <= i < n => i as nat)
  }

  /** Every index of `idx` addresses an element of a sequence of length n. */
  predicate InBounds(idx: seq<nat>, n: nat) {
    forall i :: 0 <= i < |idx| ==> idx[i] < n
  }

  /** A permutation of `range(n)`, as produced by `np.random.permutation(n)`,
      `np.argsort` or `random.shuffle` applied to `range(n)`. */
  predicate IsPermutation(p: seq<nat>, n: nat) {
    && |p| == n
    && InBounds(p, n)
    && multiset(p) == multiset(Range(n))
  }

  /** No index occurs twice. */
  ghost predicate Distinct(s: seq<nat>) {
    forall x :: multiset(s)[x] <= 1
  }

  /** The elements of a sequence, as a set. */
  function Elems<T>(s: seq<T>): set<T> {
    set x | x in s
  }

  /** Two co-indexed vectors as one vector of pairs. */
  function Zip<A, B>(a: seq<A>, b: seq<B>): (r: seq<(A, B)>)
    requires |a| == |b|
    ensures |r| == |a|
    ensures forall i :: 0 <= i < |a| ==> r[i] == (a[i], b[i])
  {
    seq(|a|, i requires 0 <= i < |a| => (a[i], b[i]))
  }

  /** numpy fancy indexing `xs[idx]`. */
  function Gather<T>(xs: seq<T>, idx: seq<nat>): (r: seq<T>)
    requires InBounds(idx, |xs|)
    ensures |r| == |idx|
    ensures forall i :: 0 <= i < |idx| ==> r[i] == xs[idx[i]]
  {
    seq(|idx|, i requires 0 <= i < |idx| => xs[idx[i]])
  }

  /** The end position Python uses for the slice `s[:k]` (and the start of
      `s[k:]`) on a sequence of length n: k is clamped to n, and a negative k
      counts from the end. */
  function SliceEnd(n: nat, k: int): (e: nat)
    ensures e <= n
    ensures 0 <= k <= n ==> e == k
    ensures k > n ==> e == n
    ensures k < 0 ==> e == if n + k >= 0 then n + k else 0
  {
    if k >= 0 then (if k <= n then k else n)
    else if n + k >= 0 then n + k else 0
  }

  /** Python `s[:k]`. */
  function PyPrefix<T>(s: seq<T>, k: int): seq<T> {
    s[..SliceEnd(|s|, k)]
  }

  /** Python `s[k:]`. */
  function PySuffix<T>(s: seq<T>, k: int): seq<T> {
    s[SliceEnd(|s|, k)..]
  }

  /** Python's `min` of two integers. */
  function Min(a: int, b: int): int {
    if a <= b then a else b
  }

  /** Number of occurrences of x in s: `sum(s == x)`. */
  function Count<T(==)>(s: seq<T>, x: T): (c: nat)
    ensures c <= |s|
    decreases |s|
  {
    if |s| == 0 then 0
    else Count(s[..|s| - 1], x) + (if s[|s| - 1] == x then 1 else 0)
  }

  /** Python `sum(s)` over an integer vector. */
  function Sum(s: seq<int>): int
    decreases |s|
  {
    if |s| == 0 then 0 else Sum(s[..|s| - 1]) + s[|s| - 1]
  }

  /** Every entry is 0 or 1. */
  predicate IsBinary(s: seq<int>) {
    forall i :: 0 <= i < |s| ==> s[i] == 0 || s[i] == 1
  }

  // ---------------------------------------------------------------------
  // Lemmas
  // ---------------------------------------------------------------------

  /** `s[:k] + s[k:] == s` for every k, negative or past the end. */
  lemma PyPrefixSuffix<T>(s: seq<T>, k: int)
    ensures PyPrefix(s, k) + PySuffix(s, k) == s
    ensures |PyPrefix(s, k)| + |PySuffix(s, k)| == |s|
  {
    assert s[..SliceEnd(|s|, k)] + s[SliceEnd(|s|, k)..] == s;
  }

  /** Count agrees with multiset multiplicity. */
  lemma {:induction false} CountMultiset<T>(s: seq<T>, x: T)
    ensures Count(s, x) == multiset(s)[x]
    decreases |s|
  {
    if |s| > 0 {
      CountMultiset(s[..|s| - 1], x);
      assert s == s[..|s| - 1] + [s[|s| - 1]];
    }
  }

  /** On a 0/1 vector the sum is the number of ones. */
  lemma {:induction false} SumBinary(s: seq<int>)
    ensures IsBinary(s) ==> Sum(s) == Count(s, 1)
    decreases |s|
  {
    if |s| > 0 {
      SumBinary(s[..|s| - 1]);
    }
  }

  /** On a 0/1 vector the zeros and the ones make up the whole vector. */
  lemma {:induction false} CountBinary(s: seq<int>)
    requires IsBinary(s)
    ensures Count(s, 0) + Count(s, 1) == |s|
    decreases |s|
  {
    if |s| > 0 {
      CountBinary(s[..|s| - 1]);
    }
  }

  lemma {:induction false} RangeDistinct(n: nat)
    ensures Distinct(Range(n))
    ensures forall x: nat :: x in multiset(Range(n)) <==> x < n
  {
    if n > 0 {
      RangeDistinct(n - 1);
      assert Range(n) == Range(n - 1) + [n - 1];
      assert multiset(Range(n)) == multiset(Range(n - 1)) + multiset{(n - 1) as nat};
      assert multiset(Range(n - 1))[(n - 1) as nat] == 0;
      forall x: nat
        ensures x in multiset(Range(n)) <==> x < n
      {
        assert x in multiset(Range(n)) <==> x in multiset(Range(n - 1)) || x == n - 1;
      }
    }
  }

  /** The facts a permutation of `range(n)` gives: no index twice, and every
      index of range(n) present. */
  lemma PermutationFacts(p: seq<nat>, n: nat)
    requires IsPermutation(p, n)
    ensures Distinct(p)
    ensures forall x: nat :: x in p <==> x < n
  {
    RangeDistinct(n);
    forall x: nat
      ensures x in p <==> x < n
    {
      calc {
        x in p;
        x in multiset(p);
        x in multiset(Range(n));
        x < n;
      }
    }
  }

  /** Taking one index out of an index vector takes its element out of the
      gathered multiset. */
  lemma GatherRemove<T>(xs: seq<T>, q: seq<nat>, j: nat)
    requires InBounds(q, |xs|) && j < |q|
    ensures InBounds(q[..j] + q[j + 1..], |xs|)
    ensures multiset(Gather(xs, q))
         == multiset(Gather(xs, q[..j] + q[j + 1..])) + multiset{xs[q[j]]}
  {
    var rest := q[..j] + q[j + 1..];
    assert Gather(xs, q) == Gather(xs, q[..j]) + [xs[q[j]]] + Gather(xs, q[j + 1..]);
    assert Gather(xs, rest) == Gather(xs, q[..j]) + Gather(xs, q[j + 1..]);
  }

  /** Two sequences with the same multiset: the head of the first occurs in
      the second at some position j, and removing it from both leaves equal
      multisets. */
  lemma MatchHead(p: seq<nat>, q: seq<nat>) returns (j: nat)
    requires |p| > 0 && multiset(p) == multiset(q)
    ensures j < |q| && q[j] == p[0]
    ensures multiset(p[1..]) == multiset(q[..j] + q[j + 1..])
  {
    assert p[0] in multiset(q);
    j :| 0 <= j < |q| && q[j] == p[0];
    assert q == q[..j] + [q[j]] + q[j + 1..];
    assert p == [p[0]] + p[1..];
    assert multiset(q) == multiset(q[..j] + q[j + 1..]) + multiset{p[0]};
    assert multiset(p) == multiset(p[1..]) + multiset{p[0]};
    forall y
      ensures multiset(p[1..])[y] == multiset(q[..j] + q[j + 1..])[y]
    {
      assert multiset(p)[y] == multiset(q)[y];
    }
  }

  /** Index vectors with the same multiset gather the same multiset of
      elements. */
  lemma {:induction false} GatherSameMultiset<T>(xs: seq<T>, p: seq<nat>, q: seq<nat>)
    requires InBounds(p, |xs|) && InBounds(q, |xs|)
    requires multiset(p) == multiset(q)
    ensures multiset(Gather(xs, p)) == multiset(Gather(xs, q))
    decreases |p|
  {
    if |p| == 0 {
      assert |q| == |multiset(q)| == 0;
    } else {
      var j := MatchHead(p, q);
      var rest := q[..j] + q[j + 1..];
      GatherRemove(xs, q, j);
      GatherSameMultiset(xs, p[1..], rest);
      assert Gather(xs, p) == [xs[p[0]]] + Gather(xs, p[1..]);
    }
  }

  /** Reordering a vector by a permutation keeps its multiset of elements. */
  lemma GatherPermutation<T>(xs: seq<T>, p: seq<nat>)
    requires IsPermutation(p, |xs|)
    ensures multiset(Gather(xs, p)) == multiset(xs)
  {
    GatherSameMultiset(xs, p, Range(|xs|));
    assert Gather(xs, Range(|xs|)) == xs;
  }

  /** Reordering by a permutation keeps the number of occurrences of every
      value. */
  lemma CountPermutation<T>(xs: seq<T>, p: seq<nat>, x: T)
    requires IsPermutation(p, |xs|)
    ensures Count(Gather(xs, p), x) == Count(xs, x)
  {
    GatherPermutation(xs, p);
    CountMultiset(xs, x);
    CountMultiset(Gather(xs, p), x);
  }

  /** Reordering by a permutation keeps the set of elements. */
  lemma ElemsPermutation<T>(xs: seq<T>, p: seq<nat>)
    requires IsPermutation(p, |xs|)
    ensures forall x :: x in Gather(xs, p) <==> x in xs
  {
    GatherPermutation(xs, p);
    forall x
      ensures x in Gather(xs, p) <==> x in xs
    {
      assert x in Gather(xs, p) <==> x in multiset(Gather(xs, p));
      assert x in xs <==> x in multiset(xs);
    }
  }

  /** A sequence without repeats splits into two parts with no common
      element. */
  lemma DistinctParts(a: seq<nat>, b: seq<nat>)
    requires Distinct(a + b)
    ensures Distinct(a) && Distinct(b)
    ensures Elems(a) !! Elems(b)
  {
    assert multiset(a + b) == multiset(a) + multiset(b);
    forall x
      ensures multiset(a)[x] <= 1 && multiset(b)[x] <= 1
    {
      assert multiset(a + b)[x] == multiset(a)[x] + multiset(b)[x];
    }
    forall x | x in a
      ensures x !in b
    {
      assert x in multiset(a);
      assert multiset(a + b)[x] == multiset(a)[x] + multiset(b)[x];
    }
  }
}

=== FILE: splits.dfy ===
/** Random splits of sample indices: `perm_and_split`, `split_training`
    and `split_train_eval_test`.

    The random permutations and shuffles are parameters: a permutation of
    `range(n)` stands for `np.random.permutation(n)`, and gathering a vector
    through one stands for `random.shuffle` of that vector. */
module Splits {
  import opened Seqs

  /** Python `int(x)` on a float: truncation toward zero. */
  function Trunc(x: real): (n: int)
    ensures 0.0 <= x ==> n as real <= x < n as real + 1.0
    ensures x < 0.0 ==> n as real - 1.0 < x <= n as real
  {
    if x >= 0.0 then x.Floor else -((-x).Floor)
  }

  /** `int(m * ratio)`: the size a ratio of m asks for. */
  function SizeFor(m: nat, ratio: real): int {
    Trunc(m as real * ratio)
  }

  /** A strictly increasing index vector has no repeats. */
  lemma {:induction false} IncreasingDistinct(s: seq<nat>)
    requires forall i, j :: 0 <= i < j < |s| ==> s[i] < s[j]
    ensures Distinct(s)
    decreases |s|
  {
    if |s| > 0 {
      var n := |s| - 1;
      IncreasingDistinct(s[..n]);
      assert s == s[..n] + [s[n]];
      assert s[n] !in s[..n];
      forall x
        ensures multiset(s)[x] <= 1
      {
        assert multiset(s)[x] == multiset(s[..n])[x] + multiset{s[n]}[x];
      }
    }
  }

  /** The elements of a permutation of `range(n)` are exactly the indices
      below n, and parts of it split that set without overlap. */
  lemma PermutationParts(ind: seq<nat>, n: nat, a: seq<nat>, b: seq<nat>)
    requires IsPermutation(ind, n) && a + b == ind
    ensures Elems(a) !! Elems(b)
    ensures forall x: nat :: x in Elems(a) + Elems(b) <==> x < n
  {
    PermutationFacts(ind, n);
    DistinctParts(a, b);
    forall x: nat
      ensures x in Elems(a) + Elems(b) <==> x < n
    {
      assert x in ind <==> x in a || x in b;
    }
  }

  // ---------------------------------------------------------------------
  // perm_and_split
  // ---------------------------------------------------------------------

  /** How a permutation is cut at `size`. `perm_and_split` and
      `split_training` write `ind[:size-1]` and `ind[size:]`; the intended
      cut is `ind[:size]` and `ind[size:]`. */
  datatype Slicing = AsWritten | Intended

  function SplitAt(slicing: Slicing, ind: seq<nat>, size: int): (seq<nat>, seq<nat>) {
    match slicing
    case AsWritten => (PyPrefix(ind, size - 1), PySuffix(ind, size))
    case Intended => (PyPrefix(ind, size), PySuffix(ind, size))
  }

  /** The intended cut puts every index in exactly one group, for every
      size, negative and past-the-end ones included. */
  lemma SplitIntendedPartition(ind: seq<nat>, n: nat, size: int)
    requires IsPermutation(ind, n)
    ensures Elems(SplitAt(Intended, ind, size).0) !! Elems(SplitAt(Intended, ind, size).1)
    ensures forall x: nat :: x in Elems(SplitAt(Intended, ind, size).0) + Elems(SplitAt(Intended, ind, size).1) <==> x < n
    ensures |SplitAt(Intended, ind, size).0| == SliceEnd(n, size)
  {
    PyPrefixSuffix(ind, size);
    PermutationParts(ind, n, PyPrefix(ind, size), PySuffix(ind, size));
  }

  /** The cut as written, for 1 <= size <= n: the groups stay disjoint,
      but the index at position size-1 lands in neither. */
  lemma SplitAsWrittenDrops(ind: seq<nat>, n: nat, size: int)
    requires IsPermutation(ind, n) && 1 <= size <= n
    ensures Elems(SplitAt(AsWritten, ind, size).0) !! Elems(SplitAt(AsWritten, ind, size).1)
    ensures ind[size - 1] !in SplitAt(AsWritten, ind, size).0
    ensures ind[size - 1] !in SplitAt(AsWritten, ind, size).1
    ensures forall x: nat :: x in Elems(SplitAt(AsWritten, ind, size).0) + Elems(SplitAt(AsWritten, ind, size).1)
                             <==> x < n && x != ind[size - 1]
    ensures |SplitAt(AsWritten, ind, size).0| == size - 1
    ensures |SplitAt(AsWritten, ind, size).1| == n - size
  {
    var (a, b) := SplitAt(AsWritten, ind, size);
    var mid := [ind[size - 1]];
    assert ind == a + (mid + b);
    PermutationParts(ind, n, a, mid + b);
    PermutationFacts(ind, n);
    DistinctParts(a, mid + b);
    DistinctParts(mid, b);
    assert ind[size - 1] in Elems(mid) && ind[size - 1] in Elems(mid + b);
    forall x: nat
      ensures x in Elems(a) + Elems(b) <==> x < n && x != ind[size - 1]
    {
      assert x in ind <==> x in a || x == ind[size - 1] || x in b;
    }
  }

  /** The cut as written, at size 0 (a ratio below 1/m): `ind[:-1]` and
      `ind[0:]` share every index but the last. */
  lemma SplitAsWrittenOverlap(ind: seq<nat>)
    requires |ind| >= 2
    ensures ind[0] in SplitAt(AsWritten, ind, 0).0 && ind[0] in SplitAt(AsWritten, ind, 0).1
    ensures |SplitAt(AsWritten, ind, 0).0| == |ind| - 1 && SplitAt(AsWritten, ind, 0).1 == ind
  {
    assert SplitAt(AsWritten, ind, 0).0 == ind[..|ind| - 1];
  }

  /** `perm_and_split(m, ratio)` with the random permutation `ind`. */
  function PermAndSplit(slicing: Slicing, m: nat, ratio: real, ind: seq<nat>): (groups: (seq<nat>, seq<nat>))
    requires IsPermutation(ind, m)
    ensures slicing.Intended? ==> Elems(groups.0) !! Elems(groups.1)
    ensures slicing.Intended? ==> forall x: nat :: x in Elems(groups.0) + Elems(groups.1) <==> x < m
    ensures slicing.AsWritten? && 1 <= SizeFor(m, ratio) <= m ==>
      && Elems(groups.0) !! Elems(groups.1)
      && |groups.0| + |groups.1| == m - 1
  {
    var size := SizeFor(m, ratio);
    SplitIntendedPartition(ind, m, size);
    if slicing.AsWritten? && 1 <= size <= m then
      SplitAsWrittenDrops(ind, m, size);
      SplitAt(slicing, ind, size)
    else
      SplitAt(slicing, ind, size)
  }

  /** `perm_and_split(5)` with the identity permutation: sizes 3 and 1, and
      index 3 is lost. */
  lemma PermAndSplitLosesOne()
    ensures IsPermutation([0, 1, 2, 3, 4], 5)
    ensures PermAndSplit(AsWritten, 5, 0.8, [0, 1, 2, 3, 4]) == ([0, 1, 2], [4])
    ensures PermAndSplit(Intended, 5, 0.8, [0, 1, 2, 3, 4]) == ([0, 1, 2, 3], [4])
  {
    var ind := [0, 1, 2, 3, 4];
    assert SizeFor(5, 0.8) == 4;
    assert ind == Range(5);
    assert ind[..3] == [0, 1, 2] && ind[..4] == [0, 1, 2, 3] && ind[4..] == [4];
  }

  /** `perm_and_split(2, 0.2)`: size 0, and index 0 is in both groups. */
  lemma PermAndSplitOverlaps()
    ensures IsPermutation([0, 1], 2)
    ensures PermAndSplit(AsWritten, 2, 0.2, [0, 1]) == ([0], [0, 1])
    ensures PermAndSplit(Intended, 2, 0.2, [0, 1]) == ([], [0, 1])
  {
    var ind := [0, 1];
    assert SizeFor(2, 0.2) == 0;
    assert ind == Range(2);
    assert ind[..1] == [0] && ind[..0] == [] && ind[0..] == ind;
  }

  // ---------------------------------------------------------------------
  // split_training
  // ---------------------------------------------------------------------

  datatype Option<T> = None | Some(value: T)

  /** `split_training`'s exit test: both groups hold a positive label sum,
      that is at least one anomaly each for 0/1 labels. */
  predicate Acceptable(labels: seq<int>, groups: (seq<nat>, seq<nat>))
    requires InBounds(groups.0, |labels|) && InBounds(groups.1, |labels|)
  {
    Sum(Gather(labels, groups.0)) > 0 && Sum(Gather(labels, groups.1)) > 0
  }

  /** Both groups of a cut of a permutation address samples. */
  lemma SplitInBounds(slicing: Slicing, ind: seq<nat>, n: nat, size: int)
    requires IsPermutation(ind, n)
    ensures InBounds(SplitAt(slicing, ind, size).0, n)
    ensures InBounds(SplitAt(slicing, ind, size).1, n)
  {
  }

  /** The candidate split an attempt with permutation ind produces. */
  function Attempt(slicing: Slicing, labels: seq<int>, ratio: real, ind: seq<nat>): (groups: (seq<nat>, seq<nat>))
    requires IsPermutation(ind, |labels|)
    ensures InBounds(groups.0, |labels|) && InBounds(groups.1, |labels|)
  {
    SplitInBounds(slicing, ind, |labels|, SizeFor(|labels|, ratio));
    SplitAt(slicing, ind, SizeFor(|labels|, ratio))
  }

  /** `split_training(labels, ratio)`. Its `while 1` loop draws permutations
      until one gives an acceptable split; here the draws are the finite
      list `perms`, and None means no draw in it was accepted (the source
      keeps drawing). */
  method SplitTraining(slicing: Slicing, labels: seq<int>, ratio: real, perms: seq<seq<nat>>)
    returns (r: Option<(seq<nat>, seq<nat>)>)
    requires forall i :: 0 <= i < |perms| ==> IsPermutation(perms[i], |labels|)
    ensures r.None? <==>
      forall i :: 0 <= i < |perms| ==> !Acceptable(labels, Attempt(slicing, labels, ratio, perms[i]))
    ensures r.Some? ==> exists i ::
      && 0 <= i < |perms|
      && r.value == Attempt(slicing, labels, ratio, perms[i])
      && Acceptable(labels, r.value)
      && forall j :: 0 <= j < i ==> !Acceptable(labels, Attempt(slicing, labels, ratio, perms[j]))
  {
    var i := 0;
    while i < |perms|
      invariant 0 <= i <= |perms|
      invariant forall j :: 0 <= j < i ==> !Acceptable(labels, Attempt(slicing, labels, ratio, perms[j]))
    {
      var groups := Attempt(slicing, labels, ratio, perms[i]);
      if Acceptable(labels, groups) {
        return Some(groups);
      }
      i := i + 1;
    }
    return None;
  }

  /** On 0/1 labels the exit test asks for an anomaly in each group. */
  lemma AcceptableMeansAnomalies(labels: seq<int>, group: seq<nat>)
    requires InBounds(group, |labels|) && IsBinary(labels)
    ensures Sum(Gather(labels, group)) > 0 <==> exists i :: 0 <= i < |group| && labels[group[i]] == 1
  {
    var g := Gather(labels, group);
    SumBinary(g);
    CountMultiset(g, 1);
    assert 1 in g <==> exists i :: 0 <= i < |group| && g[i] == 1;
  }

  /** Every element of the gathered vector is one of the vector's elements:
      with no positive label, no group sums above 0. */
  lemma {:induction false} SumNonPositive(labels: seq<int>, idx: seq<nat>)
    requires InBounds(idx, |labels|)
    requires forall i :: 0 <= i < |labels| ==> labels[i] <= 0
    ensures Sum(Gather(labels, idx)) <= 0
    decreases |idx|
  {
    if |idx| > 0 {
      var n := |idx| - 1;
      SumNonPositive(labels, idx[..n]);
      assert Gather(labels, idx)[..n] == Gather(labels, idx[..n]);
    }
  }

  /** Without an anomaly no split is accepted, so `split_training` never
      returns. */
  lemma NoAnomalyNeverAccepted(slicing: Slicing, labels: seq<int>, ratio: real, ind: seq<nat>)
    requires IsPermutation(ind, |labels|)
    requires IsBinary(labels) && Count(labels, 1) == 0
    ensures !Acceptable(labels, Attempt(slicing, labels, ratio, ind))
  {
    CountMultiset(labels, 1);
    forall i | 0 <= i < |labels|
      ensures labels[i] <= 0
    {
      assert labels[i] in multiset(labels);
    }
    var groups := Attempt(slicing, labels, ratio, ind);
    SumNonPositive(labels, groups.0);
  }

  /** As written, a training size of 1 leaves `ind[:0]` empty, so no split
      is ever accepted; the intended cut accepts a permutation whose first
      entry and some later entry are anomalies. */
  lemma TrainingSizeOne(labels: seq<int>, ratio: real, ind: seq<nat>)
    requires IsPermutation(ind, |labels|) && SizeFor(|labels|, ratio) == 1
    ensures !Acceptable(labels, Attempt(AsWritten, labels, ratio, ind))
    ensures Attempt(Intended, labels, ratio, ind).0 == ind[..1]
    ensures IsBinary(labels) && labels[ind[0]] == 1 && (exists j :: 1 <= j < |ind| && labels[ind[j]] == 1)
            ==> Acceptable(labels, Attempt(Intended, labels, ratio, ind))
  {
    if IsBinary(labels) && labels[ind[0]] == 1 && exists j :: 1 <= j < |ind| && labels[ind[j]] == 1 {
      var j :| 1 <= j < |ind| && labels[ind[j]] == 1;
      var groups := Attempt(Intended, labels, ratio, ind);
      assert groups.1 == ind[1..];
      AcceptableMeansAnomalies(labels, groups.0);
      AcceptableMeansAnomalies(labels, groups.1);
      assert labels[groups.0[0]] == 1 && labels[groups.1[j - 1]] == 1;
    }
  }

  // ---------------------------------------------------------------------
  // split_train_eval_test
  // ---------------------------------------------------------------------

  /** `ind[labels == v]`: the positions holding label v, in order. */
  function IndicesOf(labels: seq<int>, v: int): (r: seq<nat>)
    ensures |r| == Count(labels, v)
    ensures forall i :: 0 <= i < |r| ==> r[i] < |labels| && labels[r[i]] == v
    ensures forall x: nat :: x < |labels| && labels[x] == v ==> x in r
    ensures forall i, j :: 0 <= i < j < |r| ==> r[i] < r[j]
    decreases |labels|
  {
    if |labels| == 0 then []
    else
      var n := |labels| - 1;
      IndicesOf(labels[..n], v) + (if labels[n] == v then [n] else [])
  }

  /** Number of indices left for validation and test: the normals beyond
      the training set plus every anomaly. */
  function PoolSize(labels: seq<int>, ratioTrain: real): nat {
    var normals := Count(labels, 0);
    normals - SliceEnd(normals, SizeFor(|labels|, ratioTrain)) + Count(labels, 1)
  }

  /** What `split_train_eval_test` returns: three index vectors, or two when
      no validation ratio is given. */
  datatype ThreeWay =
    | TrainValTest(train: seq<nat>, val: seq<nat>, test: seq<nat>)
    | TrainTest(train: seq<nat>, test: seq<nat>)

  /** The validation part, empty when none is returned. */
  function ValPart(r: ThreeWay): seq<nat> {
    if r.TrainValTest? then r.val else []
  }

  /** The normal indices after `shuffle(ind_normal)`. */
  function ShuffledNormals(labels: seq<int>, normalOrder: seq<nat>): (s: seq<nat>)
    requires IsPermutation(normalOrder, Count(labels, 0))
    ensures |s| == Count(labels, 0)
  {
    Gather(IndicesOf(labels, 0), normalOrder)
  }

  /** `ind_normal[training_size:]` followed by the anomalies, before the
      second shuffle. */
  function Pool(labels: seq<int>, ratioTrain: real, normalOrder: seq<nat>): (p: seq<nat>)
    requires IsPermutation(normalOrder, Count(labels, 0))
    ensures |p| == PoolSize(labels, ratioTrain)
  {
    PySuffix(ShuffledNormals(labels, normalOrder), SizeFor(|labels|, ratioTrain)) + IndicesOf(labels, 1)
  }

  /** The index vectors `split_train_eval_test` builds once `ind` exists.
      The shuffle of the normal indices is `normalOrder`, the shuffle of the
      remaining pool is `poolOrder`. */
  function Parts(labels: seq<int>, ratioTrain: real, ratioVal: real,
                 normalOrder: seq<nat>, poolOrder: seq<nat>): ThreeWay
    requires IsPermutation(normalOrder, Count(labels, 0))
    requires IsPermutation(poolOrder, PoolSize(labels, ratioTrain))
  {
    var train := PyPrefix(ShuffledNormals(labels, normalOrder), SizeFor(|labels|, ratioTrain));
    var pool := Gather(Pool(labels, ratioTrain, normalOrder), poolOrder);
    var valSize := SizeFor(|labels|, ratioVal);
    if ratioVal > 0.0 then
      TrainValTest(train, PyPrefix(pool, valSize), PySuffix(pool, valSize))
    else
      TrainTest(train, PySuffix(pool, valSize))
  }

  /** `split_train_eval_test(labels, ratio_train, ratio_val)`. With no
      labels `np.hstack(range(0))` raises, which is None here. */
  function SplitTrainEvalTest(labels: seq<int>, ratioTrain: real, ratioVal: real,
                              normalOrder: seq<nat>, poolOrder: seq<nat>): (r: Option<ThreeWay>)
    requires IsPermutation(normalOrder, Count(labels, 0))
    requires IsPermutation(poolOrder, PoolSize(labels, ratioTrain))
    ensures r.None? <==> |labels| == 0
    ensures r.Some? ==> (r.value.TrainValTest? <==> ratioVal > 0.0)
    ensures r.Some? ==> forall i :: 0 <= i < |r.value.train| ==>
      r.value.train[i] < |labels| && labels[r.value.train[i]] == 0
    ensures r.Some? ==> |r.value.train| == SliceEnd(Count(labels, 0), SizeFor(|labels|, ratioTrain))
    ensures r.Some? && r.value.TrainValTest? ==>
      |r.value.val| == SliceEnd(PoolSize(labels, ratioTrain), SizeFor(|labels|, ratioVal))
  {
    if |labels| == 0 then None else Some(Parts(labels, ratioTrain, ratioVal, normalOrder, poolOrder))
  }

  /** Multiplicity of x in the returned parts; nothing is returned, so
      nothing occurs, when the call raises. */
  ghost function Hits(r: Option<ThreeWay>, x: nat): nat {
    if r.None? then 0 else PartHits(r.value, x)
  }

  /** Multiplicity of x in three (or two) index vectors. */
  ghost function PartHits(p: ThreeWay, x: nat): nat {
    multiset(p.train)[x] + multiset(ValPart(p))[x] + multiset(p.test)[x]
  }

  /** The training part and the normals left for the pool are the shuffled
      normals. */
  lemma TrainAndRest(labels: seq<int>, ratioTrain: real, normalOrder: seq<nat>)
    requires IsPermutation(normalOrder, Count(labels, 0))
    ensures var ts := SizeFor(|labels|, ratioTrain);
      multiset(PyPrefix(ShuffledNormals(labels, normalOrder), ts))
        + multiset(PySuffix(ShuffledNormals(labels, normalOrder), ts))
        == multiset(IndicesOf(labels, 0))
  {
    var shuffled := ShuffledNormals(labels, normalOrder);
    var ts := SizeFor(|labels|, ratioTrain);
    PyPrefixSuffix(shuffled, ts);
    GatherPermutation(IndicesOf(labels, 0), normalOrder);
    assert multiset(PyPrefix(shuffled, ts) + PySuffix(shuffled, ts)) == multiset(shuffled);
  }

  /** Validation and test together are the shuffled pool. */
  lemma ValAndTest(labels: seq<int>, ratioTrain: real, ratioVal: real,
                   normalOrder: seq<nat>, poolOrder: seq<nat>)
    requires IsPermutation(normalOrder, Count(labels, 0))
    requires IsPermutation(poolOrder, PoolSize(labels, ratioTrain))
    requires ratioVal >= 0.0
    ensures var r := Parts(labels, ratioTrain, ratioVal, normalOrder, poolOrder);
      multiset(ValPart(r)) + multiset(r.test) == multiset(Pool(labels, ratioTrain, normalOrder))
  {
    var r := Parts(labels, ratioTrain, ratioVal, normalOrder, poolOrder);
    var pool := Gather(Pool(labels, ratioTrain, normalOrder), poolOrder);
    var valSize := SizeFor(|labels|, ratioVal);
    PyPrefixSuffix(pool, valSize);
    assert ValPart(r) + r.test == pool by {
      if ratioVal <= 0.0 {
        assert valSize == 0;
      }
    }
    GatherPermutation(Pool(labels, ratioTrain, normalOrder), poolOrder);
    assert multiset(ValPart(r) + r.test) == multiset(pool);
  }

  /** The returned parts hold, between them, the normal and the anomalous
      indices, each as often as it occurs there. */
  lemma SplitTrainEvalTestMultiset(labels: seq<int>, ratioTrain: real, ratioVal: real,
                                   normalOrder: seq<nat>, poolOrder: seq<nat>)
    requires IsPermutation(normalOrder, Count(labels, 0))
    requires IsPermutation(poolOrder, PoolSize(labels, ratioTrain))
    requires ratioVal >= 0.0
    ensures var r := Parts(labels, ratioTrain, ratioVal, normalOrder, poolOrder);
      multiset(r.train) + multiset(ValPart(r)) + multiset(r.test)
        == multiset(IndicesOf(labels, 0)) + multiset(IndicesOf(labels, 1))
  {
    var r := Parts(labels, ratioTrain, ratioVal, normalOrder, poolOrder);
    var ts := SizeFor(|labels|, ratioTrain);
    var train := PyPrefix(ShuffledNormals(labels, normalOrder), ts);
    var rest := PySuffix(ShuffledNormals(labels, normalOrder), ts);
    var normals, anomalies := multiset(IndicesOf(labels, 0)), multiset(IndicesOf(labels, 1));
    assert r.train == train;
    TrainAndRest(labels, ratioTrain, normalOrder);
    ValAndTest(labels, ratioTrain, ratioVal, normalOrder, poolOrder);
    var pool := multiset(Pool(labels, ratioTrain, normalOrder));
    assert pool == multiset(rest) + anomalies;
    calc {
      multiset(r.train) + multiset(ValPart(r)) + multiset(r.test);
      multiset(train) + (multiset(ValPart(r)) + multiset(r.test));
      multiset(train) + (multiset(rest) + anomalies);
      (multiset(train) + multiset(rest)) + anomalies;
      normals + anomalies;
    }
  }

  /** Each index labelled 0 or 1 occurs once among the normal and anomalous
      index vectors, and nothing else occurs. */
  lemma IndicesMultiplicity(labels: seq<int>, x: nat)
    ensures multiset(IndicesOf(labels, 0))[x] + multiset(IndicesOf(labels, 1))[x]
         == if x < |labels| && (labels[x] == 0 || labels[x] == 1) then 1 else 0
  {
    var normals, anomalies := IndicesOf(labels, 0), IndicesOf(labels, 1);
    IncreasingDistinct(normals);
    IncreasingDistinct(anomalies);
    assert x in normals <==> x < |labels| && labels[x] == 0;
    assert x in anomalies <==> x < |labels| && labels[x] == 1;
    assert x in normals <==> x in multiset(normals);
    assert x in anomalies <==> x in multiset(anomalies);
  }

  /** With a nonnegative validation ratio the returned parts partition the
      samples labelled 0 or 1: every such index occurs in exactly one part
      and nothing else occurs. Anomalies therefore all land in validation
      or test. */
  lemma SplitTrainEvalTestPartition(labels: seq<int>, ratioTrain: real, ratioVal: real,
                                    normalOrder: seq<nat>, poolOrder: seq<nat>)
    requires IsPermutation(normalOrder, Count(labels, 0))
    requires IsPermutation(poolOrder, PoolSize(labels, ratioTrain))
    requires ratioVal >= 0.0
    ensures forall x: nat :: Hits(SplitTrainEvalTest(labels, ratioTrain, ratioVal, normalOrder, poolOrder), x)
                             == if x < |labels| && (labels[x] == 0 || labels[x] == 1) then 1 else 0
  {
    if |labels| > 0 {
      var p := Parts(labels, ratioTrain, ratioVal, normalOrder, poolOrder);
      PartsPartition(labels, ratioTrain, ratioVal, normalOrder, poolOrder);
      assert SplitTrainEvalTest(labels, ratioTrain, ratioVal, normalOrder, poolOrder) == Some(p);
    }
  }

  /** The partition for the vectors built once `ind` exists. */
  lemma PartsPartition(labels: seq<int>, ratioTrain: real, ratioVal: real,
                       normalOrder: seq<nat>, poolOrder: seq<nat>)
    requires IsPermutation(normalOrder, Count(labels, 0))
    requires IsPermutation(poolOrder, PoolSize(labels, ratioTrain))
    requires ratioVal >= 0.0
    ensures forall x: nat :: PartHits(Parts(labels, ratioTrain, ratioVal, normalOrder, poolOrder), x)
                             == if x < |labels| && (labels[x] == 0 || labels[x] == 1) then 1 else 0
  {
    var p := Parts(labels, ratioTrain, ratioVal, normalOrder, poolOrder);
    SplitTrainEvalTestMultiset(labels, ratioTrain, ratioVal, normalOrder, poolOrder);
    forall x: nat
      ensures PartHits(p, x) == if x < |labels| && (labels[x] == 0 || labels[x] == 1) then 1 else 0
    {
      IndicesMultiplicity(labels, x);
      var lhs := multiset(p.train) + multiset(ValPart(p)) + multiset(p.test);
      assert PartHits(p, x) == lhs[x];
    }
  }

  /** No anomaly is trained on: each one is in the validation or the test
      part. */
  lemma AnomaliesHeldOut(labels: seq<int>, ratioTrain: real, ratioVal: real,
                         normalOrder: seq<nat>, poolOrder: seq<nat>, x: nat)
    requires IsPermutation(normalOrder, Count(labels, 0))
    requires IsPermutation(poolOrder, PoolSize(labels, ratioTrain))
    requires ratioVal >= 0.0
    requires x < |labels| && labels[x] == 1
    ensures var r := SplitTrainEvalTest(labels, ratioTrain, ratioVal, normalOrder, poolOrder);
      r.Some? && x !in r.value.train && (x in ValPart(r.value) || x in r.value.test)
  {
    var r := SplitTrainEvalTest(labels, ratioTrain, ratioVal, normalOrder, poolOrder);
    SplitTrainEvalTestPartition(labels, ratioTrain, ratioVal, normalOrder, poolOrder);
    assert Hits(r, x) == 1;
    var p := r.value;
    assert x !in multiset(p.train);
    assert x in multiset(ValPart(p)) || x in multiset(p.test);
  }
}

=== FILE: thresholds.dfy ===
/** Threshold learning and application: `select_threshold_distance`,
    `select_threshold_probability`, and the test phase of
    `train_test_with_reconstruction_error` and `train_test_with_gaussian`.

    A detector turns anomaly scores into 0/1 predictions with a threshold
    epsilon. For a reconstruction error (a distance) larger is more
    anomalous; for a Gaussian density (a probability) smaller is. The
    selectors sweep a grid of candidate thresholds and keep the first one
    with the highest F1 on the validation labels. */
module Thresholds {
  import opened Seqs
  import opened Metrics

  /** Which side of the threshold counts as anomalous. */
  datatype Direction =
    | Distance     // anomalous when score > epsilon; ranked largest first
    | Probability  // anomalous when score < epsilon; ranked smallest first

  /** A score that the detector flags as an anomaly at threshold eps. */
  predicate Flags(dir: Direction, score: real, eps: real) {
    match dir
    case Distance => score > eps
    case Probability => score < eps
  }

  /** The prediction vector for threshold eps: 1 where the score is flagged,
      0 elsewhere (`preds = zeros; preds[score > eps] = 1`, or the boolean
      array `score > eps`, whose True/False act as 1/0). */
  function Predict(dir: Direction, scores: seq<real>, eps: real): (p: seq<int>)
    ensures |p| == |scores|
    ensures IsBinary(p)
    ensures forall i :: 0 <= i < |scores| ==> (p[i] == 1 <==> Flags(dir, scores[i], eps))
  {
    seq(|scores|, i requires 0 <= i < |scores| => if Flags(dir, scores[i], eps) then 1 else 0)
  }

  /** Order of the ranking the selectors and the test phase build:
      `np.argsort(-distance)` puts the largest distance first,
      `np.argsort(p)` the smallest probability first. */
  predicate RankedBefore(dir: Direction, a: real, b: real) {
    match dir
    case Distance => a >= b
    case Probability => a <= b
  }

  /** `rank` is an argsort of `scores` in the direction's order. Ties may be
      broken in any way: numpy's default sort is not stable. */
  predicate IsRanking(rank: seq<nat>, scores: seq<real>, dir: Direction) {
    && IsPermutation(rank, |scores|)
    && forall i, j :: 0 <= i < j < |rank| ==> RankedBefore(dir, scores[rank[i]], scores[rank[j]])
  }

  /** Smallest score (`ndarray.min()`). */
  function MinOf(s: seq<real>): (m: real)
    requires |s| > 0
    ensures m in s
    ensures forall i :: 0 <= i < |s| ==> m <= s[i]
    decreases |s|
  {
    if |s| == 1 then s[0]
    else
      var m := MinOf(s[..|s| - 1]);
      if s[|s| - 1] < m then s[|s| - 1] else m
  }

  /** Largest score (`ndarray.max()`). */
  function MaxOf(s: seq<real>): (m: real)
    requires |s| > 0
    ensures m in s
    ensures forall i :: 0 <= i < |s| ==> s[i] <= m
    decreases |s|
  {
    if |s| == 1 then s[0]
    else
      var m := MaxOf(s[..|s| - 1]);
      if s[|s| - 1] > m then s[|s| - 1] else m
  }

  /** The extremes do not depend on the order: min and max of the ranked
      scores are those of the scores. */
  lemma MinMaxPermutation(s: seq<real>, rank: seq<nat>)
    requires |s| > 0 && IsPermutation(rank, |s|)
    ensures MinOf(Gather(s, rank)) == MinOf(s)
    ensures MaxOf(Gather(s, rank)) == MaxOf(s)
  {
    var g := Gather(s, rank);
    ElemsPermutation(s, rank);
    var lo, glo := MinOf(s), MinOf(g);
    var i :| 0 <= i < |g| && g[i] == lo;
    var j :| 0 <= j < |s| && s[j] == glo;
    assert glo <= lo && lo <= glo;
    var hi, ghi := MaxOf(s), MaxOf(g);
    var i' :| 0 <= i' < |g| && g[i'] == hi;
    var j' :| 0 <= j' < |s| && s[j'] == ghi;
    assert hi <= ghi && ghi <= hi;
  }

  // ---------------------------------------------------------------------
  // Candidate thresholds
  // ---------------------------------------------------------------------

  /** The candidate thresholds `np.arange(min, max, step)` with min < max:
      starting at min, strictly increasing, and below max except perhaps for
      the last point. Floating-point arange is not exact: it makes
      `ceil((max - min) / step)` points, and rounding can add a last point
      at max itself (`np.arange(0.0, 69.0, 0.69)` ends with 69.0). So the
      selectors take the grid as a parameter constrained by this predicate;
      UniformGrid is its exact-real instance, and GridEndingAtMax the one
      with that extra point. */
  predicate IsSweepGrid(grid: seq<real>, lo: real, hi: real) {
    && |grid| > 0 && grid[0] == lo
    && (forall i, j :: 0 <= i < j < |grid| ==> grid[i] < grid[j])
    && (forall i :: 0 <= i < |grid| - 1 ==> grid[i] < hi)
  }

  /** The i-th point lo + i * step of an arithmetic grid. */
  function GridPoint(lo: real, step: real, i: int): real {
    lo + (i as real) * step
  }

  /** `np.arange(lo, hi, (hi - lo) / 100)` in exact arithmetic: the hundred
      points lo + i * step for i = 0 .. 99. */
  function UniformGrid(lo: real, hi: real): (g: seq<real>)
    ensures |g| == 100
  {
    seq(100, i requires 0 <= i < 100 => GridPoint(lo, (hi - lo) / 100.0, i))
  }

  /** Points of a grid with a positive step increase with their index and
      stay below the point at index 100. */
  lemma GridPointOrder(lo: real, step: real, i: int, j: int)
    requires 0.0 < step && i < j
    ensures GridPoint(lo, step, i) < GridPoint(lo, step, j)
  {
    MulLessScaled(i as real, j as real, step);
  }

  /** With a positive span the exact grid is a sweep grid starting at the
      minimum. */
  lemma UniformGridIsSweepGrid(lo: real, hi: real)
    requires lo < hi
    ensures IsSweepGrid(UniformGrid(lo, hi), lo, hi)
    ensures forall i :: 0 <= i < 100 ==> UniformGrid(lo, hi)[i] < hi
  {
    var g := UniformGrid(lo, hi);
    var step := (hi - lo) / 100.0;
    assert step > 0.0;
    assert GridPoint(lo, step, 100) == hi by {
      assert 100.0 * step == hi - lo;
    }
    assert GridPoint(lo, step, 0) == lo;
    forall i | 0 <= i < 100
      ensures lo <= g[i] < hi
    {
      if i > 0 {
        GridPointOrder(lo, step, 0, i);
      }
      GridPointOrder(lo, step, i, 100);
    }
    forall i, j | 0 <= i < j < 100
      ensures g[i] < g[j]
    {
      GridPointOrder(lo, step, i, j);
    }
  }

  /** The float grid with a 101st point at max is a sweep grid too. */
  lemma GridEndingAtMax(lo: real, hi: real)
    requires lo < hi
    ensures IsSweepGrid(UniformGrid(lo, hi) + [hi], lo, hi)
  {
    UniformGridIsSweepGrid(lo, hi);
  }

  /** Scaling both sides of x < y by a positive factor. */
  lemma MulLessScaled(x: real, y: real, c: real)
    requires x < y && 0.0 < c
    ensures x * c < y * c
  {
    MulPos(y - x, c);
    assert (y - x) * c == y * c - x * c;
  }

  // ---------------------------------------------------------------------
  // Selection
  // ---------------------------------------------------------------------

  /** F1 of the detector at threshold eps, on the unranked samples. */
  function SweepF1(dir: Direction, scores: seq<real>, labels: seq<int>, eps: real): real
    requires |labels| == |scores|
  {
    F1(Confusion(Predict(dir, scores, eps), labels))
  }

  /** A threshold with positive F1 flags some anomaly. */
  lemma PositiveF1FlagsAnomaly(dir: Direction, scores: seq<real>, labels: seq<int>, eps: real)
    requires |labels| == |scores|
    ensures SweepF1(dir, scores, labels, eps) > 0.0 ==>
      exists i :: 0 <= i < |scores| && labels[i] == 1 && Flags(dir, scores[i], eps)
  {
    if !exists i :: 0 <= i < |scores| && labels[i] == 1 && Flags(dir, scores[i], eps) {
      NoHits(Predict(dir, scores, eps), labels);
    }
  }

  /** The F1 of every candidate threshold, in grid order. */
  function CandidateF1s(dir: Direction, scores: seq<real>, labels: seq<int>, grid: seq<real>): (fs: seq<real>)
    requires |labels| == |scores|
    ensures |fs| == |grid|
    ensures forall i :: 0 <= i < |grid| ==> fs[i] == SweepF1(dir, scores, labels, grid[i])
  {
    seq(|grid|, i requires 0 <= i < |grid| => SweepF1(dir, scores, labels, grid[i]))
  }

  /** j holds the maximum of fs, and nothing before j reaches it. */
  ghost predicate IsFirstArgmax(fs: seq<real>, j: int) {
    && 0 <= j < |fs|
    && (forall i :: 0 <= i < |fs| ==> fs[i] <= fs[j])
    && (forall i :: 0 <= i < j ==> fs[i] < fs[j])
  }

  /** The threshold a sweep keeps: the candidate at the first maximum of F1
      when that maximum is positive, and the initial `best_epsilon = 0` when
      no candidate beats the initial `best_f1 = 0`. */
  ghost predicate IsSelection(fs: seq<real>, grid: seq<real>, eps: real) {
    && |fs| == |grid|
    && (|| ((forall i :: 0 <= i < |fs| ==> fs[i] <= 0.0) && eps == 0.0)
        || (exists j :: IsFirstArgmax(fs, j) && fs[j] > 0.0 && eps == grid[j]))
  }

  /** A sweep has exactly one outcome, so a selector's result is determined
      by the scores, the labels and the grid; the ranking (and how it breaks
      ties) does not enter. */
  lemma SelectionUnique(fs: seq<real>, grid: seq<real>, e1: real, e2: real)
    requires IsSelection(fs, grid, e1) && IsSelection(fs, grid, e2)
    ensures e1 == e2
  {
    if exists j :: IsFirstArgmax(fs, j) && fs[j] > 0.0 && e1 == grid[j] {
      var j1 :| IsFirstArgmax(fs, j1) && fs[j1] > 0.0 && e1 == grid[j1];
      var j2 :| IsFirstArgmax(fs, j2) && fs[j2] > 0.0 && e2 == grid[j2];
      assert j1 == j2;
    }
  }

  /** Thresholding commutes with ranking, and the F1 of the ranked
      prediction is the F1 of the unranked one. */
  lemma SweepF1Ranked(dir: Direction, scores: seq<real>, labels: seq<int>, rank: seq<nat>, eps: real)
    requires |labels| == |scores| && IsPermutation(rank, |scores|)
    ensures Predict(dir, Gather(scores, rank), eps) == Gather(Predict(dir, scores, eps), rank)
    ensures Confusion(Predict(dir, Gather(scores, rank), eps), Gather(labels, rank))
         == Confusion(Predict(dir, scores, eps), labels)
  {
    assert Predict(dir, Gather(scores, rank), eps) == Gather(Predict(dir, scores, eps), rank);
    ConfusionPermutationInvariant(Predict(dir, scores, eps), labels, rank);
  }

  /** One sweep step: predict on the ranked scores at threshold eps and
      take the F1 of `eval_prediction` in rate mode. It is the F1 of the
      unranked prediction, whatever the ranking. */
  method EvaluateCandidate(dir: Direction, scores: seq<real>, labels: seq<int>, k: int,
                           rank: seq<nat>, eps: real) returns (f1: real)
    requires |labels| == |scores| && IsPermutation(rank, |scores|)
    ensures f1 == SweepF1(dir, scores, labels, eps)
  {
    var predsRanked := Predict(dir, Gather(scores, rank), eps);
    f1 := EvalPrediction(predsRanked, Gather(labels, rank), k, true).f1;
    SweepF1Ranked(dir, scores, labels, rank, eps);
  }

  /** The loop shared by both selectors: for each candidate threshold in
      order, predict on the ranked scores, evaluate with `eval_prediction`
      in rate mode, and keep the threshold whenever F1 strictly improves. */
  method Sweep(dir: Direction, scores: seq<real>, labels: seq<int>, k: int,
               rank: seq<nat>, grid: seq<real>) returns (best: real)
    requires |labels| == |scores| && IsPermutation(rank, |scores|)
    ensures IsSelection(CandidateF1s(dir, scores, labels, grid), grid, best)
  {
    ghost var fs := CandidateF1s(dir, scores, labels, grid);
    best := 0.0;
    var bestF1 := 0.0;
    ghost var bestIdx := -1;
    var i := 0;
    while i < |grid|
      invariant 0 <= i <= |grid|
      invariant -1 <= bestIdx < i
      invariant bestIdx == -1 ==> best == 0.0 && bestF1 == 0.0
      invariant bestIdx == -1 ==> forall j :: 0 <= j < i ==> fs[j] <= 0.0
      invariant bestIdx >= 0 ==> best == grid[bestIdx] && bestF1 == fs[bestIdx] && bestF1 > 0.0
      invariant bestIdx >= 0 ==> forall j :: 0 <= j < i ==> fs[j] <= bestF1
      invariant bestIdx >= 0 ==> forall j :: 0 <= j < bestIdx ==> fs[j] < bestF1
    {
      var f1 := EvaluateCandidate(dir, scores, labels, k, rank, grid[i]);
      if f1 > bestF1 {
        bestF1 := f1;
        best := grid[i];
        bestIdx := i;
      }
      i := i + 1;
    }
    if bestIdx >= 0 {
      assert IsFirstArgmax(fs, bestIdx);
    }
  }

  /** Why a selector raises instead of returning a threshold. */
  datatype SelectError =
    | EmptyScores  // `max()` of an empty array raises ValueError
    | ZeroStep     // all distances equal: `np.arange` with step 0 raises

  datatype Result<T> = Ok(value: T) | Err(error: SelectError)

  /** `select_threshold_distance`. The sweep runs over `grid`, standing for
      `np.arange(min, max, (max - min) / 100)` of the distances. */
  method SelectThresholdDistance(dist: seq<real>, labels: seq<int>, k: int,
                                 rank: seq<nat>, grid: seq<real>) returns (r: Result<real>)
    requires |labels| == |dist|
    requires IsRanking(rank, dist, Distance)
    requires |dist| > 0 && MinOf(dist) < MaxOf(dist) ==> IsSweepGrid(grid, MinOf(dist), MaxOf(dist))
    ensures r.Err? <==> |dist| == 0 || MinOf(dist) == MaxOf(dist)
    ensures r.Err? ==> r.error == if |dist| == 0 then EmptyScores else ZeroStep
    ensures r.Ok? ==> IsSelection(CandidateF1s(Distance, dist, labels, grid), grid, r.value)
    ensures r.Ok? ==> r.value == 0.0 || (r.value in grid && MinOf(dist) <= r.value < MaxOf(dist))
  {
    if |dist| == 0 {
      return Err(EmptyScores);
    }
    var ranked := Gather(dist, rank);
    MinMaxPermutation(dist, rank);
    if MaxOf(ranked) == MinOf(ranked) {
      return Err(ZeroStep);
    }
    assert MinOf(dist) <= dist[0] <= MaxOf(dist);
    assert IsSweepGrid(grid, MinOf(dist), MaxOf(dist));
    var best := Sweep(Distance, dist, labels, k, rank, grid);
    if best != 0.0 {
      // A candidate at or above the maximum flags nothing, so F1 0 never wins.
      ghost var fs := CandidateF1s(Distance, dist, labels, grid);
      ghost var j :| IsFirstArgmax(fs, j) && fs[j] > 0.0 && best == grid[j];
      PositiveF1FlagsAnomaly(Distance, dist, labels, best);
      ghost var i :| 0 <= i < |dist| && labels[i] == 1 && Flags(Distance, dist[i], best);
      assert dist[i] <= MaxOf(dist);
      assert grid[0] <= grid[j];
    }
    return Ok(best);
  }

  /** `select_threshold_probability`. Equal minimum and maximum short-cut to
      threshold 0 instead of sweeping. */
  method SelectThresholdProbability(p: seq<real>, labels: seq<int>, k: int,
                                    rank: seq<nat>, grid: seq<real>) returns (r: Result<real>)
    requires |labels| == |p|
    requires IsRanking(rank, p, Probability)
    requires |p| > 0 && MinOf(p) < MaxOf(p) ==> IsSweepGrid(grid, MinOf(p), MaxOf(p))
    ensures r.Err? <==> |p| == 0
    ensures r.Err? ==> r.error == EmptyScores
    ensures r.Ok? && MinOf(p) == MaxOf(p) ==> r.value == 0.0
    ensures r.Ok? && MinOf(p) < MaxOf(p) ==> IsSelection(CandidateF1s(Probability, p, labels, grid), grid, r.value)
    ensures r.Ok? ==> r.value == 0.0 || (r.value in grid && MinOf(p) < r.value)
  {
    if |p| == 0 {
      return Err(EmptyScores);
    }
    var ranked := Gather(p, rank);
    MinMaxPermutation(p, rank);
    if MaxOf(ranked) == MinOf(ranked) {
      return Ok(0.0);
    }
    assert MinOf(p) <= p[0] <= MaxOf(p);
    assert IsSweepGrid(grid, MinOf(p), MaxOf(p));
    var best := Sweep(Probability, p, labels, k, rank, grid);
    if best != 0.0 {
      // A candidate at or below the minimum flags nothing, so F1 0 never wins.
      ghost var fs := CandidateF1s(Probability, p, labels, grid);
      ghost var j :| IsFirstArgmax(fs, j) && fs[j] > 0.0 && best == grid[j];
      PositiveF1FlagsAnomaly(Probability, p, labels, best);
      ghost var i :| 0 <= i < |p| && labels[i] == 1 && Flags(Probability, p[i], best);
      assert MinOf(p) <= p[i];
    }
    return Ok(best);
  }

  const EndScores: seq<real> := [0.0, 68.5, 69.0]
  const EndLabels: seq<int> := [0, 1, 0]

  /** On densities [0, 68.5, 69] with labels [0, 1, 0], the float grid of
      `np.arange(0.0, 69.0, 0.69)`, which ends with 69.0, selects 69.0, the
      maximum density: only there is 68.5 flagged. The exact-real grid has
      no such point and selects 0. */
  lemma GridEndSelected()
    ensures IsSelection(CandidateF1s(Probability, EndScores, EndLabels, UniformGrid(0.0, 69.0) + [69.0]),
                        UniformGrid(0.0, 69.0) + [69.0], 69.0)
    ensures IsSelection(CandidateF1s(Probability, EndScores, EndLabels, UniformGrid(0.0, 69.0)),
                        UniformGrid(0.0, 69.0), 0.0)
  {
    var g := UniformGrid(0.0, 69.0);
    var grid := g + [69.0];
    var fs := CandidateF1s(Probability, EndScores, EndLabels, grid);
    var fs' := CandidateF1s(Probability, EndScores, EndLabels, g);
    forall i | 0 <= i < 100
      ensures fs[i] == 0.0 && fs'[i] == 0.0
    {
      assert grid[i] == g[i];
      ExactGridBelowAnomaly(i);
    }
    assert grid[100] == 69.0;
    EndPointFlagsAnomaly();
    assert fs[100] > 0.0;
    assert IsFirstArgmax(fs, 100);
  }

  /** Every exact-real candidate lies below the anomaly's density 68.5, so
      it flags no anomaly and has F1 0. */
  lemma ExactGridBelowAnomaly(i: int)
    requires 0 <= i < 100
    ensures SweepF1(Probability, EndScores, EndLabels, UniformGrid(0.0, 69.0)[i]) == 0.0
  {
    var eps := UniformGrid(0.0, 69.0)[i];
    assert eps == (i as real) * 0.69;
    assert eps <= 99.0 * 0.69;
    PositiveF1FlagsAnomaly(Probability, EndScores, EndLabels, eps);
  }

  /** At 69.0 the densities 0 and 68.5 are flagged. */
  lemma EndPointFlagsAnomaly()
    ensures SweepF1(Probability, EndScores, EndLabels, 69.0) == 2.0 / 3.0
  {
    assert Predict(Probability, EndScores, 69.0) == [1, 1, 0];
    TwoFlaggedOneHit();
  }

  /** Flags at 0 and 68.5: one hit, one false alarm, no miss. */
  lemma TwoFlaggedOneHit()
    ensures F1(Confusion([1, 1, 0], EndLabels)) == 2.0 / 3.0
  {
    var p, l := [1, 1, 0], EndLabels;
    assert Zip(p, l) == [(1, 0), (1, 1), (0, 0)];
    ConfusionOfPairs(p, l);
    assert Confusion(p, l) == Counts(1, 1, 1, 0);
    OneHitOneFalseAlarm();
  }

  /** Precision 1/2 and recall 1 give F1 2/3. */
  lemma OneHitOneFalseAlarm()
    ensures F1(Counts(1, 1, 1, 0)) == 2.0 / 3.0
  {
    assert Precision(Counts(1, 1, 1, 0)) == 0.5;
    assert Recall(Counts(1, 1, 1, 0)) == 1.0;
  }

  // ---------------------------------------------------------------------
  // Raising anomaly scores
  // ---------------------------------------------------------------------

  /** Score b is at least as anomalous as score a in the direction. */
  predicate AtLeastAsAnomalous(dir: Direction, a: real, b: real) {
    match dir
    case Distance => a <= b
    case Probability => b <= a
  }

  /** `after` moves only the scores of samples labelled 1, and only towards
      the anomalous side. */
  predicate RaisesAnomalies(dir: Direction, before: seq<real>, after: seq<real>, labels: seq<int>) {
    && |before| == |labels| && |after| == |labels|
    && (forall i :: 0 <= i < |labels| && labels[i] != 1 ==> after[i] == before[i])
    && (forall i :: 0 <= i < |labels| && labels[i] == 1 ==> AtLeastAsAnomalous(dir, before[i], after[i]))
  }

  /** At a fixed threshold, making anomalies more anomalous never lowers F1:
      hits can only rise, false alarms stay, and the anomalies stay the
      same. */
  lemma SweepF1Monotone(dir: Direction, before: seq<real>, after: seq<real>, labels: seq<int>, eps: real)
    requires RaisesAnomalies(dir, before, after, labels)
    ensures SweepF1(dir, before, labels, eps) <= SweepF1(dir, after, labels, eps)
  {
    var p, q := Predict(dir, before, eps), Predict(dir, after, eps);
    MoreHitsCounts(p, q, labels);
    F1Mono(Confusion(p, labels), Confusion(q, labels));
  }

  /** Over one fixed grid, the best F1 the sweep reaches does not drop when
      anomalies become more anomalous. */
  lemma SweepBestMonotone(dir: Direction, before: seq<real>, after: seq<real>, labels: seq<int>,
                          grid: seq<real>, j: int, j': int)
    requires RaisesAnomalies(dir, before, after, labels)
    requires IsFirstArgmax(CandidateF1s(dir, before, labels, grid), j)
    requires IsFirstArgmax(CandidateF1s(dir, after, labels, grid), j')
    ensures CandidateF1s(dir, before, labels, grid)[j] <= CandidateF1s(dir, after, labels, grid)[j']
  {
    SweepF1Monotone(dir, before, after, labels, grid[j]);
  }

  const RaiseLabels: seq<int> := [0, 0, 0, 1, 1]
  const RaiseBefore: seq<real> := [0.0, 4.95, 9.0, 5.05, 10.0]
  const RaiseAfter: seq<real> := [0.0, 4.95, 9.0, 5.05, 1000.0]

  /** `select_threshold_distance` rebuilds its grid from the minimum and
      maximum distance, so raising an anomaly's distance can lower the best
      F1. Before, the grid of [0, 10) holds 5, where F1 is 4/5; after the
      anomaly at 10 moves to 1000, the grid is 0, 10, ..., 990 and every
      candidate gives 2/3. */
  lemma RebuiltGridLowersBest()
    ensures RaisesAnomalies(Distance, RaiseBefore, RaiseAfter, RaiseLabels)
    ensures MinOf(RaiseBefore) == 0.0 && MaxOf(RaiseBefore) == 10.0
    ensures MinOf(RaiseAfter) == 0.0 && MaxOf(RaiseAfter) == 1000.0
    ensures UniformGrid(0.0, 10.0)[50] == 5.0
    ensures SweepF1(Distance, RaiseBefore, RaiseLabels, 5.0) == 0.8
    ensures forall i :: 0 <= i < 100 ==>
      SweepF1(Distance, RaiseAfter, RaiseLabels, UniformGrid(0.0, 1000.0)[i]) == 2.0 / 3.0
  {
    RaiseExtremes();
    assert Predict(Distance, RaiseBefore, 5.0) == [0, 0, 1, 1, 1];
    TwoOfThreeFlagged();
    forall i | 0 <= i < 100
      ensures SweepF1(Distance, RaiseAfter, RaiseLabels, UniformGrid(0.0, 1000.0)[i]) == 2.0 / 3.0
    {
      RaisedCandidate(i);
    }
  }

  /** The extremes of the two score vectors. */
  lemma RaiseExtremes()
    ensures MinOf(RaiseBefore) == 0.0 && MaxOf(RaiseBefore) == 10.0
    ensures MinOf(RaiseAfter) == 0.0 && MaxOf(RaiseAfter) == 1000.0
  {
    // Each extreme is one of the scores and bounds the first or last one.
    var lo, hi := MinOf(RaiseBefore), MaxOf(RaiseBefore);
    assert lo <= RaiseBefore[0] && RaiseBefore[4] <= hi;
    var lo', hi' := MinOf(RaiseAfter), MaxOf(RaiseAfter);
    assert lo' <= RaiseAfter[0] && RaiseAfter[4] <= hi';
  }

  /** Candidate i of the grid over [0, 1000) is 10 i; at 0 every positive
      score is flagged, from 10 on only 1000 is. */
  lemma RaisedCandidate(i: int)
    requires 0 <= i < 100
    ensures SweepF1(Distance, RaiseAfter, RaiseLabels, UniformGrid(0.0, 1000.0)[i]) == 2.0 / 3.0
  {
    var eps := UniformGrid(0.0, 1000.0)[i];
    assert eps == (i as real) * 10.0;
    if i == 0 {
      assert Predict(Distance, RaiseAfter, eps) == [0, 1, 1, 1, 1];
      AllFlagged();
    } else {
      assert Predict(Distance, RaiseAfter, eps) == [0, 0, 0, 0, 1];
      OnlyLastFlagged();
    }
  }

  /** Flags at 9, 5.05 and 10: two hits, one false alarm, no miss. */
  lemma TwoOfThreeFlagged()
    ensures F1(Confusion([0, 0, 1, 1, 1], RaiseLabels)) == 0.8
  {
    var p, l := [0, 0, 1, 1, 1], RaiseLabels;
    assert Zip(p, l) == [(0, 0), (0, 0), (1, 0), (1, 1), (1, 1)];
    ConfusionOfPairs(p, l);
    assert Confusion(p, l) == Counts(2, 2, 1, 0);
  }

  /** Every positive score flagged: two hits, two false alarms, no miss. */
  lemma AllFlagged()
    ensures F1(Confusion([0, 1, 1, 1, 1], RaiseLabels)) == 2.0 / 3.0
  {
    var p, l := [0, 1, 1, 1, 1], RaiseLabels;
    assert Zip(p, l) == [(0, 0), (1, 0), (1, 0), (1, 1), (1, 1)];
    ConfusionOfPairs(p, l);
    assert Confusion(p, l) == Counts(2, 1, 2, 0);
  }

  /** Only 1000 flagged: one hit, no false alarm, one miss. */
  lemma OnlyLastFlagged()
    ensures F1(Confusion([0, 0, 0, 0, 1], RaiseLabels)) == 2.0 / 3.0
  {
    var p, l := [0, 0, 0, 0, 1], RaiseLabels;
    assert Zip(p, l) == [(0, 0), (0, 0), (0, 0), (0, 1), (1, 1)];
    ConfusionOfPairs(p, l);
    assert Confusion(p, l) == Counts(1, 3, 0, 1);
  }

  // ---------------------------------------------------------------------
  // Test phase
  // ---------------------------------------------------------------------

  /** In ranked order the predictions are sorted: every flagged sample comes
      before every unflagged one, whatever the ties. */
  lemma RankedPredictionsSorted(dir: Direction, scores: seq<real>, rank: seq<nat>, eps: real)
    requires IsRanking(rank, scores, dir)
    ensures forall i, j :: 0 <= i < j < |scores| ==>
      Predict(dir, Gather(scores, rank), eps)[i] >= Predict(dir, Gather(scores, rank), eps)[j]
  {
  }

  /** In a 0/1 vector ordered ones first, a 0 at index i leaves at most i
      ones. */
  lemma {:induction false} SortedOnesBefore(p: seq<int>, i: int)
    requires IsBinary(p)
    requires forall a, b :: 0 <= a < b < |p| ==> p[a] >= p[b]
    requires 0 <= i < |p| && p[i] == 0
    ensures Count(p, 1) <= i
    decreases |p|
  {
    if i < |p| - 1 {
      SortedOnesBefore(p[..|p| - 1], i);
    } else {
      assert p[..|p| - 1] == p[..i];
    }
  }

  /** With at least n samples flagged, the first n in ranked order are all
      flagged, so the precision of the ranked `[:n]` cut is the share of
      anomalies among the first n ranked samples. */
  lemma RankedCutPrecision(dir: Direction, scores: seq<real>, labels: seq<int>,
                           rank: seq<nat>, eps: real, n: int)
    requires |labels| == |scores| && IsRanking(rank, scores, dir) && IsBinary(labels)
    requires 0 <= n <= Count(Predict(dir, scores, eps), 1)
    ensures n <= |labels|
    ensures Precision(Confusion(PyPrefix(Predict(dir, Gather(scores, rank), eps), n),
                                PyPrefix(Gather(labels, rank), n)))
         == Frac(Count(Gather(labels, rank)[..n], 1), n)
  {
    var pr := Predict(dir, Gather(scores, rank), eps);
    var lr := Gather(labels, rank);
    SweepF1Ranked(dir, scores, labels, rank, eps);
    CountPermutation(Predict(dir, scores, eps), rank, 1);
    RankedPredictionsSorted(dir, scores, rank, eps);
    forall i | 0 <= i < n
      ensures pr[i] == 1
    {
      if pr[i] == 0 {
        SortedOnesBefore(pr, i);
      }
    }
    assert PyPrefix(pr, n) == pr[..n];
    assert PyPrefix(lr, n) == lr[..n];
    AllPredictedPrecision(pr[..n], lr[..n]);
  }

  /** RankedCutPrecision at the two cuts `eval_with_test` takes: R, the
      number of anomalies, and k. */
  lemma RankedCuts(dir: Direction, scores: seq<real>, labels: seq<int>,
                   rank: seq<nat>, eps: real, k: int)
    requires |labels| == |scores| && IsRanking(rank, scores, dir)
    ensures var n := Count(labels, 1); var lr := Gather(labels, rank);
      IsBinary(labels) && n <= Count(Predict(dir, scores, eps), 1) ==>
        && Sum(lr) == n
        && Precision(Confusion(PyPrefix(Predict(dir, Gather(scores, rank), eps), n), PyPrefix(lr, n)))
           == Frac(Count(lr[..n], 1), n)
    ensures 0 <= k <= Count(Predict(dir, scores, eps), 1) && IsBinary(labels) ==>
      && k <= |labels|
      && Precision(Confusion(PyPrefix(Predict(dir, Gather(scores, rank), eps), k), PyPrefix(Gather(labels, rank), k)))
         == Frac(Count(Gather(labels, rank)[..k], 1), k)
  {
    if IsBinary(labels) {
      var lr := Gather(labels, rank);
      assert IsBinary(lr);
      SumBinary(lr);
      CountPermutation(labels, rank, 1);
      if Count(labels, 1) <= Count(Predict(dir, scores, eps), 1) {
        RankedCutPrecision(dir, scores, labels, rank, eps, Count(labels, 1));
      }
      if 0 <= k <= Count(Predict(dir, scores, eps), 1) {
        RankedCutPrecision(dir, scores, labels, rank, eps, k);
      }
    }
  }

  /** The test phase of both `train_test_with_*` functions: rank the test
      scores, predict with the learned threshold, and report
      `eval_with_test` on the ranked vectors. Recall, precision and F are
      those of the unranked prediction; R is the number of test anomalies. */
  function TestPhase(dir: Direction, scores: seq<real>, labels: seq<int>,
                     rank: seq<nat>, threshold: real, k: int): (t: TestReport)
    requires |labels| == |scores|
    requires IsRanking(rank, scores, dir)
    ensures (t.recall, t.precision, t.f) == EvaluatePred(Predict(dir, scores, threshold), labels)
    ensures IsBinary(labels) ==> t.r == Count(labels, 1)
    ensures 0.0 <= t.rPrec <= 1.0 && 0.0 <= t.precK <= 1.0
    ensures var n := Count(labels, 1);
      IsBinary(labels) && n <= Count(Predict(dir, scores, threshold), 1) ==>
        t.rPrec == Frac(Count(Gather(labels, rank)[..n], 1), n)
    ensures 0 <= k <= Count(Predict(dir, scores, threshold), 1) && IsBinary(labels) ==>
      k <= |labels| && t.precK == Frac(Count(Gather(labels, rank)[..k], 1), k)
  {
    var ranked := Gather(scores, rank);
    var labelsRanked := Gather(labels, rank);
    SweepF1Ranked(dir, scores, labels, rank, threshold);
    CountPermutation(labels, rank, 1);
    RankedCuts(dir, scores, labels, rank, threshold, k);
    EvalWithTest(Predict(dir, ranked, threshold), labelsRanked, k)
  }

  /** `train_test_with_reconstruction_error` with printing off. The
      reconstruction distances of the training and test sets are inputs. */
  method TrainTestWithReconstructionError(
      distTrain: seq<real>, labelsTrain: seq<int>, rankTrain: seq<nat>, grid: seq<real>,
      distTest: seq<real>, labelsTest: seq<int>, rankTest: seq<nat>, k: int)
    returns (r: Result<TestReport>)
    requires |labelsTrain| == |distTrain| && IsRanking(rankTrain, distTrain, Distance)
    requires |distTrain| > 0 && MinOf(distTrain) < MaxOf(distTrain) ==> IsSweepGrid(grid, MinOf(distTrain), MaxOf(distTrain))
    requires |labelsTest| == |distTest| && IsRanking(rankTest, distTest, Distance)
    ensures r.Err? <==> |distTrain| == 0 || MinOf(distTrain) == MaxOf(distTrain)
    ensures r.Ok? ==> exists eps ::
      && IsSelection(CandidateF1s(Distance, distTrain, labelsTrain, grid), grid, eps)
      && (eps == 0.0 || MinOf(distTrain) <= eps < MaxOf(distTrain))
      && r.value == TestPhase(Distance, distTest, labelsTest, rankTest, eps, k)
  {
    var threshold := SelectThresholdDistance(distTrain, labelsTrain, k, rankTrain, grid);
    if threshold.Err? {
      return Err(threshold.error);
    }
    r := Ok(TestPhase(Distance, distTest, labelsTest, rankTest, threshold.value, k));
  }

  /** `train_test_with_gaussian` with printing off. The fitted density's
      values on the training and test sets are inputs. */
  method TrainTestWithGaussian(
      pTrain: seq<real>, labelsTrain: seq<int>, rankTrain: seq<nat>, grid: seq<real>,
      pTest: seq<real>, labelsTest: seq<int>, rankTest: seq<nat>, k: int)
    returns (r: Result<TestReport>)
    requires |labelsTrain| == |pTrain| && IsRanking(rankTrain, pTrain, Probability)
    requires |pTrain| > 0 && MinOf(pTrain) < MaxOf(pTrain) ==> IsSweepGrid(grid, MinOf(pTrain), MaxOf(pTrain))
    requires |labelsTest| == |pTest| && IsRanking(rankTest, pTest, Probability)
    ensures r.Err? <==> |pTrain| == 0
    ensures r.Ok? && MinOf(pTrain) == MaxOf(pTrain) ==>
      r.value == TestPhase(Probability, pTest, labelsTest, rankTest, 0.0, k)
    ensures r.Ok? && MinOf(pTrain) < MaxOf(pTrain) ==> exists eps ::
      && IsSelection(CandidateF1s(Probability, pTrain, labelsTrain, grid), grid, eps)
      && (eps == 0.0 || (eps in grid && MinOf(pTrain) < eps))
      && r.value == TestPhase(Probability, pTest, labelsTest, rankTest, eps, k)
  {
    var threshold := SelectThresholdProbability(pTrain, labelsTrain, k, rankTrain, grid);
    if threshold.Err? {
      return Err(threshold.error);
    }
    r := Ok(TestPhase(Probability, pTest, labelsTest, rankTest, threshold.value, k));
  }
}
